=== FILE: README.md ===
# valex core, modelled in Dafny

valex is a small tree-walking interpreter with a read-evaluate-print loop.
Each input line is handled in three steps:

1. `tokenize` turns it into tokens.
2. A recursive-descent parser turns the tokens into a program (a sequence
   of statements).
3. The evaluator runs the program against a chain of scopes that lives for
   the whole session.

The language has:

- numbers, strings and identifiers;
- `+ - * /`, assignment, parentheses;
- `let`/`const` declarations and `;` separators;
- `//` comments and nesting `/* */` comments.

This project models that core as pure Dafny functions, one module per
source file:

| module | models |
|---|---|
| `Results` | the `Result`/`Option` wrappers. Every fatal `exit(EXIT_FAILURE)` of the source becomes an `Err` carrying a specific error. |
| `Values` | runtime values (`runtimeval_*` are the datatype constructors) and `copy_value` |
| `Lexer` | `tokenize`, on the suffix of the input still to be read; `At` gives the C terminator `'\0'` past the end |
| `Ast` | the expression and statement shapes; `program_init`/`program_append` |
| `Parser` | `parse_program` … `parse_primary_expr` over a token sequence and a cursor |
| `Scopes` | frames (a map of bindings plus a set of constants) and `resolve`, `declarevar`, `getvar`, `setvar`, `new_scope`, `init_global_scope` |
| `Interpreter` | `eval_program` … `eval_assignment_expr`. Each returns the value together with the scope it leaves behind. |
| `Pipeline` | `parse_src` and one REPL step (parse a line, then evaluate it in the session scope) |

The property modules hold the lemmas that relate these operations to
independent definitions or to each other:

- **`LexerProps`**: how each lexeme is cut from the input; the error cases;
  and a round trip. Every well-formed token sequence is read back from its
  spelling.
- **`ParserProps`**: precedence and associativity; that comparison operators
  are rejected; and a round trip. Every well-formed program is parsed back
  from its tokens.
- **`InterpreterProps`**: a recursive lookup function and a scope-free
  reference semantics that the evaluator agrees with; what assignment and
  declaration leave behind; constant protection; shadowing; and how
  programs run one after another in a session compose.
- **`PipelineProps`**: a printed program parses back to itself, and running
  its text is evaluating it.

## Model

| member | source | states |
|---|---|---|
| Values.CopyValue | src/runtime/values.c:89-108 | a copy has the tag of the original and the same number, truth value or text |
| Ast.ProgramAppend | src/frontend/ast.c:150-164 | appending grows the program by one, puts the new statement last and keeps every earlier statement in its place |
| Lexer.SpanLength | src/frontend/lexer.c:113-128 | the identifier and digit loops stop at the first character outside the class, so the run is maximal |
| Lexer.BinopText | src/frontend/lexer.c:64-80 | `binopstr` spells an arithmetic operator as the one character it was read from |
| Lexer.WordKind | src/frontend/lexer.c:130-141 | a word is `Let` exactly when it is `let`, `Const` exactly when it is `const`, and otherwise an identifier |
| Lexer.SkipBlockComment | src/frontend/lexer.c:276-304 | scanning a comment body either ends strictly inside the input, after its closer, or fails as unclosed at a positive depth |
| Lexer.LexWord | src/frontend/lexer.c:103-143 | an identifier-shaped run becomes a well-formed word token and the scan moves forward |
| Lexer.LexNumber | src/frontend/lexer.c:144-173 | a digit run becomes a well-formed number token and the scan moves forward |
| Lexer.LexString | src/frontend/lexer.c:174-210 | a closed string literal yields a quote-free string token, and the scan moves past the closing quote |
| Lexer.LexBlockComment | src/frontend/lexer.c:272-307 | a block comment emits no token and leaves a strictly shorter input |
| Lexer.NextStep | src/frontend/lexer.c:101-321 | every branch of the scan loop emits only well-formed tokens and always consumes input |
| Lexer.Lex | src/frontend/lexer.c:97-328 | a successful scan ends in exactly one text-less end-of-file token, and every token before it is well-formed |
| LexerProps.SpanLengthUnique | src/frontend/lexer.c:113-128 | the length of a maximal run is determined by its three properties alone |
| LexerProps.LexStep | src/frontend/lexer.c:101-322 | the scan emits the token of the current branch (if any), then the tokens of the rest |
| LexerProps.LexUnrecognized | src/frontend/lexer.c:317-321 | a character that starts no lexeme is an error naming that character |
| LexerProps.LexSkippable | src/frontend/lexer.c:313-316 | space, tab and newline produce no token |
| LexerProps.LexWordRun | src/frontend/lexer.c:103-143 | a maximal word is one token whose text is the word; `let`/`const` become keywords |
| LexerProps.LexNumberRun | src/frontend/lexer.c:144-173 | a maximal digit run is one number token whose text is exactly those digits |
| LexerProps.LexStringLiteral | src/frontend/lexer.c:174-210 | a string token's text is exactly what lies between the quotes, with no escapes |
| LexerProps.LexUnterminatedString | src/frontend/lexer.c:201-205 | a string literal without a closing quote is an error |
| LexerProps.LexTwoCharOperator | src/frontend/lexer.c:221-259 | `>=`, `<=` and `==` are one operator token, taken before `>`, `<` and `=` |
| LexerProps.LexComparison | src/frontend/lexer.c:221-246 | `>` or `<` not followed by `=` is a one-character operator |
| LexerProps.LexLoneEquals | src/frontend/lexer.c:247-259 | a lone `=` is the assignment token, not an operator |
| LexerProps.LexArithmetic | src/frontend/lexer.c:265-312 | `+ - * /` are one-character operators; `/` is one only when it does not start a comment |
| LexerProps.LexPunctuation | src/frontend/lexer.c:211-264 | `(`, `)` and `;` are tokens of their own kinds |
| LexerProps.LexLineComment | src/frontend/lexer.c:265-271 | a `//` comment runs up to the next newline, which is still scanned |
| LexerProps.LexTrailingLineComment | src/frontend/lexer.c:265-271 | a `//` comment ending the input leaves only the end-of-file token |
| LexerProps.SkipPlain | src/frontend/lexer.c:279-288 | comment text without `*` or `/` does not change the nesting depth |
| LexerProps.SkipOpener | src/frontend/lexer.c:281-286 | an inner opener raises the depth by one |
| LexerProps.SkipCloser | src/frontend/lexer.c:279-303 | a closer lowers the depth by one, and at depth 1 ends the comment |
| LexerProps.LexClosedComment | src/frontend/lexer.c:272-307 | a closed comment and the two characters after it produce no token |
| LexerProps.LexOpenComment | src/frontend/lexer.c:289-300 | a comment that never gets back to depth 0 is the error of the whole scan |
| LexerProps.LexBlockCommentSwallowsTwo | src/frontend/lexer.c:305-306 | after the final closer two more characters are skipped, so text right after a comment is lost |
| LexerProps.LexNestedBlockComment | src/frontend/lexer.c:272-307 | comments nest: an inner opener needs its own closer before the outer one counts |
| LexerProps.LexUnclosedComment | src/frontend/lexer.c:289-299 | end of input inside a comment is an error at depth 1 |
| LexerProps.LexUnclosedNestedComment | src/frontend/lexer.c:289-299 | end of input inside a nested comment is an error at the depth reached |
| LexerProps.LexCommentAtEnd | src/frontend/lexer.c:301-306 | any block comment, nested ones included, that closes less than two characters before the end would make the scan read past the terminator; this is an error |
| LexerProps.LexPlainCommentAtEnd | src/frontend/lexer.c:301-306 | in particular `/*` plain text `*/` followed by fewer than two characters is that error |
| LexerProps.LexFails | src/frontend/lexer.c:97-322 | an error in the first branch taken is the error of the whole scan |
| LexerProps.LexOperatorText | src/frontend/lexer.c:221-312 | every operator spelling reads back as the operator token it spells |
| LexerProps.LexWordToken | src/frontend/lexer.c:103-143 | every word token's text reads back as that very token |
| LexerProps.LexSpelling | src/frontend/lexer.c:101-321 | the spelling of any well-formed token, followed by a space, reads back as that token |
| LexerProps.LexRender | src/frontend/lexer.c:97-328 | round trip: every sequence of well-formed tokens is lexed back from its spelling, closed by end-of-file |
| Parser.ParseExpr | src/frontend/parser.c:98-101 | a parsed expression consumed at least one token, all of them consumable, starting with an operand |
| Parser.ParseAssignment | src/frontend/parser.c:103-113 | an assignment chain consumes only consumable tokens and starts with an operand |
| Parser.ParseAdditive | src/frontend/parser.c:115-131 | a sum consumes only consumable tokens and starts with an operand |
| Parser.ParseAdditiveTail | src/frontend/parser.c:118-129 | the `+`/`-` loop never moves back and consumes only consumable tokens |
| Parser.ParseMultiplicative | src/frontend/parser.c:133-149 | a product consumes only consumable tokens and starts with an operand |
| Parser.ParseMultiplicativeTail | src/frontend/parser.c:136-147 | the `*`/`/` loop never moves back and consumes only consumable tokens |
| Parser.ParsePrimary | src/frontend/parser.c:151-175 | a name, number or string is one token; end-of-file where an operand belongs is an error; `(` and an expression not followed by `)` is the missing-`)` error |
| Parser.ParseVarDecl | src/frontend/parser.c:80-96 | a name must follow `let`/`const`; `const` without `=` is an error; `let x` has no initializer and is not constant |
| Parser.ParseStmt | src/frontend/parser.c:71-78 | a statement consumes at least one token and stops before end-of-file; only a `let`/`const` start gives a declaration |
| Parser.SkipSemicolons | src/frontend/parser.c:63-66 | skipping stops at the first token that is not `;` |
| Parser.ParseStatements | src/frontend/parser.c:59-67 | statements are appended after those already parsed, and every token up to end-of-file is consumed by some rule |
| Parser.ParseProgram | src/frontend/parser.c:55-69 | a successful parse consumed all input before end-of-file; a leading `;` is an error |
| ParserProps.DigitsRoundTrip | src/frontend/parser.c:158 | the value `atoi` reads from the decimal digits of a number is that number |
| ParserProps.ParsePrimaryTokens | src/frontend/parser.c:151-175 | every well-formed expression is read back as one operand from its fully parenthesised tokens |
| ParserProps.ParseBinaryTokens | src/frontend/parser.c:133-149 | a parenthesised binary node is read back with its operands and operator text unchanged |
| ParserProps.ParseAssignmentTokens | src/frontend/parser.c:103-113 | a parenthesised assignment is read back with its target and value unchanged |
| ParserProps.ParseStmtTokens | src/frontend/parser.c:71-96 | every well-formed statement followed by `;` is read back as itself |
| ParserProps.ParseStatementsTokens | src/frontend/parser.c:59-67 | the statements of a laid-out program are appended in source order |
| ParserProps.ParseProgramTokens | src/frontend/parser.c:55-69 | round trip: every well-formed program is what the parser builds from its tokens |
| ParserProps.AdditiveLeftAssociative | src/frontend/parser.c:115-131 | `a - b - c` parses as `(a - b) - c` |
| ParserProps.MultiplicativeLeftAssociative | src/frontend/parser.c:133-149 | `a / b / c` parses as `(a / b) / c` |
| ParserProps.ProductBindsTighterOnRight | src/frontend/parser.c:115-149 | `a + b * c` parses as `a + (b * c)` |
| ParserProps.ProductBindsTighterOnLeft | src/frontend/parser.c:115-149 | `a * b + c` parses as `(a * b) + c` |
| ParserProps.AssignmentRightAssociative | src/frontend/parser.c:103-113 | `a = b = c` parses as `a = (b = c)` |
| ParserProps.TextDecidesOperator | src/frontend/parser.c:118 | a string token whose text is `+` continues a sum just as the operator would |
| ParserProps.ComparisonRejected | src/frontend/parser.c:166-175 | a program with `<`, `>`, `<=`, `>=` or `==` before its end does not parse |
| Scopes.NewScope | src/runtime/scope.c:144-150 | a new scope is an empty frame without constants in front of the unchanged parent chain |
| Scopes.Resolve | src/runtime/scope.c:9-23 | a name resolves to the innermost frame binding it, and fails exactly when no frame does |
| Scopes.Declare | src/runtime/scope.c:25-82 | fails exactly when the current frame already binds the name; otherwise binds it there, marks it constant only when asked, and changes nothing else |
| Scopes.Get | src/runtime/scope.c:84-94 | fails exactly on an unbound name; otherwise gives the value in the innermost frame binding it |
| Scopes.Set | src/runtime/scope.c:96-116 | fails on an unbound name, or on a name constant in the frame where it resolves; otherwise overwrites only that binding |
| Scopes.InitGlobalScope | src/runtime/scope.c:152-159 | the global scope is one frame binding `null`, `true`, `false` as constants |
| Interpreter.EvalNumericBinary | src/runtime/interpreter.c:76-97 | `+ - * /` give sum, difference, product and quotient; any other operator text is an error |
| Interpreter.EvalBinaryOperands | src/runtime/interpreter.c:57-74 | a Null operand gives Null; two numbers go to the arithmetic; any other pair is an error naming both types |
| Interpreter.EvalExpr | src/runtime/interpreter.c:39-55 | evaluating an expression never adds or removes a binding and never changes a constant |
| Interpreter.EvalVariableDeclaration | src/runtime/interpreter.c:34-37 | a declaration only adds bindings; one without an initializer is an error |
| Interpreter.EvalStmt | src/runtime/interpreter.c:20-32 | running a statement keeps every binding and every constant's value |
| Interpreter.EvalStatements | src/runtime/interpreter.c:13-16 | running statements in sequence keeps every binding and every constant's value |
| Interpreter.EvalProgram | src/runtime/interpreter.c:10-18 | an empty program gives Null and the unchanged scope; no run loses a binding or changes a constant |
| InterpreterProps.LookupInnermost | src/runtime/scope.c:9-23 | recursive lookup through the parent chain finds exactly the innermost binding |
| InterpreterProps.GetLookup | src/runtime/scope.c:84-94 | `getvar` agrees with recursive lookup, with an unresolved name as its error |
| InterpreterProps.EvalDenote | src/runtime/interpreter.c:39-74 | on assignment-free expressions the evaluator computes the scope-free reference value and leaves the scope as it was |
| InterpreterProps.CombineOperands | src/runtime/interpreter.c:57-74 | the evaluator's chain of type tests agrees with a case analysis on the operand pair |
| InterpreterProps.BinaryOperandsInOrder | src/runtime/interpreter.c:57-65 | both operands are evaluated, left first; a Null operand gives Null but keeps the effects of both |
| InterpreterProps.BinaryLeftFails | src/runtime/interpreter.c:59-60 | a failing left operand fails the whole expression |
| InterpreterProps.NonIdentifierTargetFails | src/runtime/interpreter.c:101-105 | assigning to anything but a name is an error, whatever the value |
| InterpreterProps.AssignmentOutcome | src/runtime/interpreter.c:99-107 | `x = v` fails on an unbound or constant `x`; otherwise it overwrites the innermost `x` with the value of `v` and yields it |
| InterpreterProps.AssignThenGet | src/runtime/scope.c:96-116 | after `x = v`, reading `x` gives the value of `v` |
| InterpreterProps.AssignedInnermost | src/runtime/scope.c:114-115 | overwriting the innermost binding keeps it innermost and readable as the new value |
| InterpreterProps.DeclarationOutcome | src/runtime/interpreter.c:34-37 | a declaration fails when its initializer fails or the name is already in the current frame; otherwise it binds the initializer's value |
| InterpreterProps.DeclareThenGet | src/runtime/scope.c:53-81 | after a declaration the name is bound in the current frame, reads as the declared value, and is constant when declared `const` |
| InterpreterProps.RedeclarationFails | src/runtime/scope.c:27-34 | declaring the same name twice in one frame fails |
| InterpreterProps.ConstProtected | src/runtime/scope.c:106-113 | after `const x = e` and any statements run after it, `x = v` fails with the constant-reassignment error |
| InterpreterProps.ShadowDeclare | src/runtime/scope.c:25-34 | in a new frame any name can be declared, and the outer frames stay as the initializer left them |
| InterpreterProps.ShadowAssignable | src/runtime/scope.c:96-116 | a `let` shadow of an outer constant is assignable; the store itself touches no outer frame, so the outer frames are as evaluating the right-hand side left them |
| InterpreterProps.ShadowDeclarePure | src/runtime/interpreter.c:34-37 | with an initializer free of assignments, declaring in a new frame leaves the enclosing frames exactly as they were |
| InterpreterProps.ShadowAssignablePure | src/runtime/scope.c:96-116 | with a right-hand side free of assignments, assigning a `let` shadow yields that side's value and leaves the enclosing frames exactly as the declaration found them |
| InterpreterProps.LetShadowAssignable | src/runtime/scope.c:53-79 | a `let` in a new frame binds its name in that frame and does not mark it constant |
| InterpreterProps.AssignCurrentFrame | src/runtime/scope.c:96-116 | assigning a name bound, and not constant, in the current frame yields the assigned value, and the outer frames are as evaluating the right-hand side left them |
| InterpreterProps.EvalStatementsAppend | src/runtime/interpreter.c:13-16 | running `a + b` is running `a`, then `b` from where `a` stopped |
| InterpreterProps.EvalStatementsFresh | src/runtime/interpreter.c:12-16 | the value carried into a non-empty run is overwritten and never seen |
| InterpreterProps.EvalProgramAppend | src/main.c:60-61 | running two lines in one session is running their concatenation |
| InterpreterProps.EvalProgramLast | src/runtime/interpreter.c:10-18 | a program's value is the value of its last statement, run in the scope the others left |
| InterpreterProps.GlobalConstants | src/runtime/scope.c:152-159 | `null`, `true` and `false` read as their values and cannot be assigned |
| Pipeline.ParseSource | src/frontend/parser.c:46-53 | a line parses only when it lexes, and then to what the parser builds from its tokens; a lexical error is reported as such |
| Pipeline.RunLine | src/main.c:60-61 | a REPL step evaluates the parsed line in the session scope and keeps every binding and constant |
| PipelineProps.LexPrint | src/frontend/lexer.c:97-328 | the printed text of a program lexes to the program's tokens and end-of-file |
| PipelineProps.ParsePrint | src/frontend/parser.c:46-53 | round trip: the printed text of a well-formed program parses back to that program |
| PipelineProps.RunPrint | src/main.c:60-62 | running the printed text of a program in a session is evaluating that program there |

## Left out

- The REPL loop in src/main.c is left out: line buffering from standard input, the `exit` command and printing the result. Only its parse-then-evaluate step is modelled (`Pipeline.RunLine`).
- The printing helpers `dump_tokens`, `dump_value` and the AST dumps are left out. They are output formatting, and numbers are formatted by `printf` rounding.
- Memory management is left out: `free_*`, `my_str_dup`, the capacity growth of token, program and scope arrays, and the exits on allocation failure. Dafny sequences, maps and strings take their place.
- `at`, `eat`, `expect` and `expecterr` are not separate members. They are indexing of the token sequence at the cursor plus the error result of the rule that calls them.
- `is_alpha`, `is_num`, `is_binop`, `is_skippable` and `token` are not listed in the table. They are the predicates `IsAlpha`, `IsNum`, `IsBinop`, `IsSkippable` and the `Token` constructor.
- `UnaryExpr` is not modelled. Neither the lexer nor the parser produces one: the unary and comparison parsers `parse_unary_expr` and `parse_comparision_expr` are declared in headers/frontend/parser.h but have no body, and no unary evaluator is declared. The comparison operators therefore never get past the parser.
- The string, boolean and mixed-type evaluators `eval_string_binary_expr`, `eval_bool_binary_expr`, `eval_numeric_string_binary_expr` and `eval_numeric_bool_expr` are declared in headers/runtime/interpreter.h but have no body and are never called, so no such operator case is modelled.
- `Interpreter.EvalNumericBinary` weakens the source in two ways:
  - Division by zero is an error (`DivisionByZero`), where the source's `double` division yields an IEEE infinity or NaN.
  - Numbers are exact reals, so floating-point rounding is not modelled.
- `Pipeline.ParseSource` requires every number literal to fit in a C `int`; the bound itself sits in `Parser.Parsable`, which every parser member requires. `atoi` on a longer digit run is undefined, so such lines are excluded rather than given a wrapped value.
- `Lexer.LexBlockComment` fails with `CommentOverrun` when a block comment closes less than two characters before the end of input. There the source skips past the string terminator and reads memory it does not own, so no behaviour can be modelled.
- `Lexer.Lex` requires input without `'\0'`, since the source reads a C string that ends at the first one.
- `Lexer.Lex` reads source text as characters, not bytes. The source scans `char` bytes, so on non-ASCII input its unrecognized-character error names the first byte of the UTF-8 encoding, as a signed `char` with its `%d` value. `UnrecognizedCharacter` carries the whole character instead.
- `Scopes.Get` and `Scopes.Set` return copies of values. Strings are immutable Dafny values here, so the copy-on-read of `copy_value` cannot be told apart from the original. Only its equality of tag and payload is stated (`Values.CopyValue`).
- Error messages and their exact text are left out. Each fatal exit becomes a constructor of an error datatype naming the same condition.

## Where the code and its description differ

The model follows the code in each case.

- **Trailing two characters after a block comment.** A nested block comment does close after its last closer, but the code then skips two more characters (src/frontend/lexer.c:305-306), so `/* c */1+2` reads as `2`. This is modelled as written; see `LexerProps.LexBlockCommentSwallowsTwo`.
- **`!=`.** The lexer has no `!=` operator: `!` is an unrecognized character.
- **The evaluator is narrower than described.**
  - There is no string, bool or mixed-type operator case: any non-Null pair other than two numbers is an error.
  - A string literal reaches the evaluator's fatal default branch (src/runtime/interpreter.c:51-53).
- **`let x` without an initializer.** It does not default to Null. The evaluator passes the missing initializer to `eval_expr`, which dereferences it. This is modelled as the error `MissingInitializer`.

=== FILE: ast.dfy ===
/**
  The abstract syntax tree (frontend/ast.c, headers/frontend/ast.h).

  Each `make_expr_*` / `make_stmt_*` constructor of the source is the datatype
  constructor of the same shape below: it stores its children and a copy of
  its text unchanged. A program is the sequence of its statements;
  `program_init` is the empty sequence and `program_append` is
  `ProgramAppend`.
 */
module Ast {
  import opened Results

  datatype Expr =
    | NumericLiteral(x: int)
    | StringLiteral(s: string)
    | Identifier(symbol: string)
    | BinaryExpr(left: Expr, right: Expr, op: string)
    | AssignmentExpr(assignee: Expr, value: Expr)

  /** A declaration without initializer has `init == None` (a NULL value in the source). */
  datatype Stmt =
    | ExprStmt(e: Expr)
    | VariableDeclarationStmt(ident: string, init: Option<Expr>, isConst: bool)

  type Program = seq<Stmt>

  /** `program_init` */
  const EmptyProgram: Program := []

  /**
    `program_append`: the program grows by one statement, which comes last,
    and the statements already there keep their places.
   */
  function ProgramAppend(prog: Program, stmt: Stmt): (r: Program)
    ensures |r| == |prog| + 1
    ensures r[|prog|] == stmt
    ensures forall k :: 0 <= k < |prog| ==> r[k] == prog[k]
  {
    prog + [stmt]
  }
}

=== FILE: interpreter.dfy ===
/**
  The tree-walking evaluator (runtime/interpreter.c).

  Evaluation threads the scope through the tree: every evaluation function
  returns the value it computed together with the scope as it stands
  afterwards, and operands are evaluated left before right.
 */
module Interpreter {
  import opened Results
  import opened Values
  import opened Ast
  import opened Scopes

  datatype EvalError =
    | ScopeFailure(cause: ScopeError)
      /** an expression kind the evaluator has no case for (a string literal) */
    | UnsupportedExpression
    | UnsupportedOperands(left: ValueType, right: ValueType)
    | InvalidOperation(op: string)
    | DivisionByZero
    | NonIdentifierTarget
      /** a `let` without initializer, whose NULL initializer the source dereferences */
    | MissingInitializer

  /** A value and the scope after computing it. */
  datatype Evaluated = Evaluated(val: Value, scope: Scope)

  function ScopeFailed(e: ScopeError): EvalError {
    ScopeFailure(e)
  }

  predicate IsArithmeticOp(op: string) {
    op == "+" || op == "-" || op == "*" || op == "/"
  }

  /**
    `eval_numeric_binary_expr`: the four arithmetic operators on numbers;
    every other operator text is an error. A zero divisor is an error here,
    where the source produces an IEEE infinity or NaN.
   */
  function EvalNumericBinary(left: real, right: real, op: string): (r: Result<Value, EvalError>)
    ensures r.Ok? <==> IsArithmeticOp(op) && !(op == "/" && right == 0.0)
    ensures !IsArithmeticOp(op) ==> r == Err(InvalidOperation(op))
    ensures op == "/" && right == 0.0 ==> r == Err(DivisionByZero)
    ensures r.Ok? ==> r.value.Number?
    ensures op == "+" ==> r.value.num - right == left
    ensures op == "-" ==> r.value.num + right == left
    ensures op == "*" ==> r.value.num == left * right
    ensures op == "/" && r.Ok? ==> r.value.num * right == left
  {
    if op == "+" then Ok(Number(left + right))
    else if op == "-" then Ok(Number(left - right))
    else if op == "*" then Ok(Number(left * right))
    else if op == "/" then
      if right == 0.0 then Err(DivisionByZero) else Ok(Number(left / right))
    else Err(InvalidOperation(op))
  }

  /**
    The type dispatch of `eval_binary_expr` on already evaluated operands:
    Null absorbs everything, two numbers go to the arithmetic, and every
    other pair of types is an error.
   */
  function EvalBinaryOperands(left: Value, right: Value, op: string): (r: Result<Value, EvalError>)
    ensures left.Null? || right.Null? ==> r == Ok(Null)
    ensures left.Number? && right.Number? ==> r == EvalNumericBinary(left.num, right.num, op)
    ensures !left.Null? && !right.Null? && !(left.Number? && right.Number?) ==>
              r == Err(UnsupportedOperands(TypeOf(left), TypeOf(right)))
  {
    if left.Null? || right.Null? then Ok(Null)
    else if left.Number? && right.Number? then EvalNumericBinary(left.num, right.num, op)
    else Err(UnsupportedOperands(TypeOf(left), TypeOf(right)))
  }

  /**
    `eval_expr`, `eval_binary_expr` and `eval_assignment_expr`. Evaluating an
    expression never adds or removes a binding and never changes a constant.
   */
  function EvalExpr(e: Expr, sc: Scope): (r: Result<Evaluated, EvalError>)
    requires |sc| > 0
    ensures r.Ok? ==> Preserves(sc, r.value.scope)
    decreases e
  {
    match e
    case NumericLiteral(x) => Ok(Evaluated(Number(x as real), sc))
    case Identifier(name) =>
      var v :- Get(sc, name).MapError(ScopeFailed);
      Ok(Evaluated(v, sc))
    case StringLiteral(_) => Err(UnsupportedExpression)
    case BinaryExpr(left, right, op) =>
      var l :- EvalExpr(left, sc);
      var rt :- EvalExpr(right, l.scope);
      var v :- EvalBinaryOperands(l.val, rt.val, op);
      Ok(Evaluated(v, rt.scope))
    case AssignmentExpr(assignee, value) =>
      if !assignee.Identifier? then Err(NonIdentifierTarget)
      else
        var a :- EvalExpr(value, sc);
        var stored :- Set(a.scope, assignee.symbol, a.val).MapError(ScopeFailed);
        Ok(Evaluated(stored.1, stored.0))
  }

  /** `eval_variable_declaration_stmt`: evaluate the initializer, then declare. */
  function EvalVariableDeclaration(s: Stmt, sc: Scope): (r: Result<Evaluated, EvalError>)
    requires s.VariableDeclarationStmt? && |sc| > 0
    ensures r.Ok? ==> Extends(sc, r.value.scope)
    ensures s.init.None? ==> r == Err(MissingInitializer)
  {
    if s.init.None? then Err(MissingInitializer)
    else
      var a :- EvalExpr(s.init.value, sc);
      var declared :- Declare(a.scope, s.ident, a.val, s.isConst).MapError(ScopeFailed);
      Ok(Evaluated(declared.1, declared.0))
  }

  /** `eval_stmt` */
  function EvalStmt(s: Stmt, sc: Scope): (r: Result<Evaluated, EvalError>)
    requires |sc| > 0
    ensures r.Ok? ==> Extends(sc, r.value.scope)
  {
    match s
    case ExprStmt(e) => EvalExpr(e, sc)
    case VariableDeclarationStmt(_, _, _) => EvalVariableDeclaration(s, sc)
  }

  /** The loop of `eval_program`, with the value of the statement run last in `last`. */
  function EvalStatements(stmts: seq<Stmt>, last: Evaluated): (r: Result<Evaluated, EvalError>)
    requires |last.scope| > 0
    ensures r.Ok? ==> Extends(last.scope, r.value.scope)
    decreases |stmts|
  {
    if |stmts| == 0 then Ok(last)
    else
      var a :- EvalStmt(stmts[0], last.scope);
      EvalStatements(stmts[1..], a)
  }

  /**
    `eval_program`: the statements run in order against one scope; the result
    is the value of the last one, or Null for an empty program.
   */
  function EvalProgram(prog: Program, sc: Scope): (r: Result<Evaluated, EvalError>)
    requires |sc| > 0
    ensures r.Ok? ==> Extends(sc, r.value.scope)
    ensures |prog| == 0 ==> r == Ok(Evaluated(Null, sc))
  {
    EvalStatements(prog, Evaluated(Null, sc))
  }
}

=== FILE: interpreter_props.dfy ===
/**
  Properties of the evaluator: name lookup through the scope chain, a
  scope-free reference semantics for expressions without assignments,
  what assignments and declarations leave behind, constant protection,
  shadowing, and how programs compose when run one after the other.
 */
module InterpreterProps {
  import opened Results
  import opened Values
  import opened Ast
  import opened Scopes
  import opened Interpreter

  /* ---------------- Name lookup ---------------- */

  /** The value of `name` in the first frame, from the current one outwards, that binds it. */
  function Lookup(sc: Scope, name: string): Option<Value>
    decreases |sc|
  {
    if |sc| == 0 then None
    else if name in sc[0].vars then Some(sc[0].vars[name])
    else Lookup(sc[1..], name)
  }

  /** `Lookup` finds exactly the innermost binding, and nothing when there is none. */
  lemma {:induction false} LookupInnermost(sc: Scope, name: string)
    ensures Lookup(sc, name).None? <==> Unbound(sc, name)
    ensures forall i: nat :: Innermost(sc, name, i) ==> Lookup(sc, name) == Some(sc[i].vars[name])
    decreases |sc|
  {
    if |sc| > 0 && name !in sc[0].vars {
      LookupInnermost(sc[1..], name);
      forall i: nat | Innermost(sc, name, i)
        ensures Lookup(sc, name) == Some(sc[i].vars[name])
      {
        assert i > 0;
        assert Innermost(sc[1..], name, i - 1);
      }
      if Unbound(sc[1..], name) {
        forall j | 0 <= j < |sc| ensures name !in sc[j].vars {
          if j > 0 {
            assert sc[1..][j - 1] == sc[j];
          }
        }
      }
      if Unbound(sc, name) {
        forall j | 0 <= j < |sc[1..]| ensures name !in sc[1..][j].vars {
          assert sc[1..][j] == sc[j + 1];
        }
      }
    }
  }

  /** Some frame binds a bound name, and one of them is the innermost. */
  lemma InnermostExists(sc: Scope, name: string) returns (i: nat)
    requires |sc| > 0 && !Unbound(sc, name)
    ensures Innermost(sc, name, i)
  {
    i := Resolve(sc, name).value;
  }

  /** `getvar` is `Lookup`, with an unresolved name as its error. */
  lemma GetLookup(sc: Scope, name: string)
    requires |sc| > 0
    ensures Get(sc, name) == if Lookup(sc, name).Some? then Ok(Lookup(sc, name).value) else Err(Unresolved(name))
  {
    LookupInnermost(sc, name);
    if !Unbound(sc, name) {
      var i := InnermostExists(sc, name);
    }
  }

  /* ---------------- Reference semantics of expressions ---------------- */

  /** An expression with no assignment anywhere in it. */
  predicate AssignmentFree(e: Expr) {
    match e
    case AssignmentExpr(_, _) => false
    case BinaryExpr(l, r, _) => AssignmentFree(l) && AssignmentFree(r)
    case _ => true
  }

  /** The operand rule, by cases on the pair of values. */
  function Combine(l: Value, r: Value, op: string): Result<Value, EvalError> {
    match (l, r)
    case (Null, _) => Ok(Null)
    case (_, Null) => Ok(Null)
    case (Number(a), Number(b)) => EvalNumericBinary(a, b, op)
    case _ => Err(UnsupportedOperands(TypeOf(l), TypeOf(r)))
  }

  /** The value of an assignment-free expression in a fixed scope. */
  function Denote(e: Expr, sc: Scope): Result<Value, EvalError>
    requires AssignmentFree(e)
  {
    match e
    case NumericLiteral(x) => Ok(Number(x as real))
    case StringLiteral(_) => Err(UnsupportedExpression)
    case Identifier(name) =>
      if Lookup(sc, name).Some? then Ok(Lookup(sc, name).value) else Err(ScopeFailure(Unresolved(name)))
    case BinaryExpr(l, r, op) =>
      var a :- Denote(l, sc);
      var b :- Denote(r, sc);
      Combine(a, b, op)
  }

  /** A value computed without touching the scope. */
  function InScope(d: Result<Value, EvalError>, sc: Scope): Result<Evaluated, EvalError> {
    match d
    case Ok(v) => Ok(Evaluated(v, sc))
    case Err(err) => Err(err)
  }

  /**
    On expressions without assignments the evaluator is the reference
    semantics: it computes `Denote` and hands the scope back unchanged.
   */
  lemma {:induction false} EvalDenote(e: Expr, sc: Scope)
    requires |sc| > 0 && AssignmentFree(e)
    ensures EvalExpr(e, sc) == InScope(Denote(e, sc), sc)
    decreases e
  {
    match e
    case NumericLiteral(_) =>
    case StringLiteral(_) =>
    case Identifier(name) =>
      GetLookup(sc, name);
    case BinaryExpr(l, r, op) =>
      EvalDenote(l, sc);
      EvalDenote(r, sc);
      if Denote(l, sc).Ok? && Denote(r, sc).Ok? {
        CombineOperands(Denote(l, sc).value, Denote(r, sc).value, op);
      }
  }

  /** The operand rule by cases agrees with the evaluator's chain of tests. */
  lemma CombineOperands(l: Value, r: Value, op: string)
    ensures EvalBinaryOperands(l, r, op) == Combine(l, r, op)
  {
    match (l, r)
    case (Null, _) =>
    case (_, Null) =>
    case (Number(a), Number(b)) =>
    case _ =>
  }

  /**
    Both operands are always evaluated, left first, the right one in the
    scope the left one left behind; a Null operand makes the result Null
    but keeps the effects of both.
   */
  lemma BinaryOperandsInOrder(l: Expr, r: Expr, op: string, sc: Scope, a: Evaluated, b: Evaluated)
    requires |sc| > 0 && EvalExpr(l, sc) == Ok(a) && |a.scope| > 0 && EvalExpr(r, a.scope) == Ok(b)
    ensures EvalExpr(BinaryExpr(l, r, op), sc) ==
            match Combine(a.val, b.val, op)
            case Ok(v) => Ok(Evaluated(v, b.scope))
            case Err(err) => Err(err)
    ensures a.val.Null? || b.val.Null? ==> EvalExpr(BinaryExpr(l, r, op), sc) == Ok(Evaluated(Null, b.scope))
  {
    CombineOperands(a.val, b.val, op);
  }

  /** A failing left operand fails the whole expression; the right one is not reached. */
  lemma BinaryLeftFails(l: Expr, r: Expr, op: string, sc: Scope)
    requires |sc| > 0 && EvalExpr(l, sc).Err?
    ensures EvalExpr(BinaryExpr(l, r, op), sc) == Err(EvalExpr(l, sc).error)
  {
  }

  /** Only a name can be assigned to; the value is not evaluated otherwise. */
  lemma NonIdentifierTargetFails(t: Expr, v: Expr, sc: Scope)
    requires |sc| > 0 && !t.Identifier?
    ensures EvalExpr(AssignmentExpr(t, v), sc) == Err(NonIdentifierTarget)
  {
  }

  /* ---------------- Assignment ---------------- */

  /**
    `x = v` succeeds exactly when `x` is bound, after evaluating `v`, in a
    frame where it is not constant; otherwise it fails naming `x`.
   */
  lemma AssignmentOutcome(x: string, v: Expr, sc: Scope, a: Evaluated)
    requires |sc| > 0 && EvalExpr(v, sc) == Ok(a)
    ensures |a.scope| > 0
    ensures Unbound(a.scope, x) ==>
              EvalExpr(AssignmentExpr(Identifier(x), v), sc) == Err(ScopeFailure(Unresolved(x)))
    ensures forall i: nat :: Innermost(a.scope, x, i) && x in a.scope[i].consts ==>
              EvalExpr(AssignmentExpr(Identifier(x), v), sc) == Err(ScopeFailure(ConstReassigned(x)))
    ensures forall i: nat :: Innermost(a.scope, x, i) && x !in a.scope[i].consts ==>
              && EvalExpr(AssignmentExpr(Identifier(x), v), sc).Ok?
              && Assigned(a.scope, EvalExpr(AssignmentExpr(Identifier(x), v), sc).value.scope, i, x, a.val)
              && EvalExpr(AssignmentExpr(Identifier(x), v), sc).value.val == a.val
  {
    AssignUnfold(x, v, sc, a);
  }

  /** `x = v` stores the value of `v` with `setvar` in the scope `v` left behind. */
  lemma AssignUnfold(x: string, v: Expr, sc: Scope, a: Evaluated)
    requires |sc| > 0 && EvalExpr(v, sc) == Ok(a)
    ensures |a.scope| > 0
    ensures EvalExpr(AssignmentExpr(Identifier(x), v), sc) ==
            match Set(a.scope, x, a.val)
            case Ok(stored) => Ok(Evaluated(stored.1, stored.0))
            case Err(err) => Err(ScopeFailure(err))
  {
  }

  /** After `x = v`, reading `x` gives the value the assignment produced, which is the value of `v`. */
  lemma AssignThenGet(x: string, v: Expr, sc: Scope, r: Evaluated)
    requires |sc| > 0 && EvalExpr(AssignmentExpr(Identifier(x), v), sc) == Ok(r)
    ensures EvalExpr(v, sc).Ok? && r.val == EvalExpr(v, sc).value.val
    ensures |r.scope| > 0 && Get(r.scope, x) == Ok(r.val)
  {
    var a := EvalExpr(v, sc).value;
    var i := InnermostExists(a.scope, x);
    AssignmentOutcome(x, v, sc, a);
    AssignedInnermost(a.scope, r.scope, i, x, a.val);
  }

  /** Overwriting the innermost binding of `x` keeps it the innermost binding. */
  lemma AssignedInnermost(sc: Scope, sc': Scope, i: nat, x: string, value: Value)
    requires Innermost(sc, x, i) && Assigned(sc, sc', i, x, value)
    ensures Innermost(sc', x, i) && |sc'| > 0
    ensures Get(sc', x) == Ok(value)
  {
    forall j | 0 <= j < i ensures x !in sc'[j].vars {
      assert sc'[j] == sc[j];
    }
  }

  /* ---------------- Declarations ---------------- */

  /**
    `let`/`const x = e` succeeds exactly when `e` evaluates and `x` is not
    already bound in the current frame; it fails with `Redeclared` otherwise.
   */
  lemma DeclarationOutcome(x: string, e: Expr, isConst: bool, sc: Scope)
    requires |sc| > 0
    ensures var r := EvalStmt(VariableDeclarationStmt(x, Some(e), isConst), sc);
            && (EvalExpr(e, sc).Err? ==> r == Err(EvalExpr(e, sc).error))
            && (EvalExpr(e, sc).Ok? && x in EvalExpr(e, sc).value.scope[0].vars ==>
                  r == Err(ScopeFailure(Redeclared(x))))
            && (EvalExpr(e, sc).Ok? && x !in EvalExpr(e, sc).value.scope[0].vars ==>
                  r.Ok? && r.value.val == EvalExpr(e, sc).value.val
                  && Declared(EvalExpr(e, sc).value.scope, r.value.scope, x, r.value.val, isConst))
  {
  }

  /**
    After a successful declaration `x` is bound in the current frame to the
    declared value, reading it gives that value, and it is constant exactly
    when declared with `const` or already constant there.
   */
  lemma DeclareThenGet(x: string, e: Expr, isConst: bool, sc: Scope, r: Evaluated)
    requires |sc| > 0 && EvalStmt(VariableDeclarationStmt(x, Some(e), isConst), sc) == Ok(r)
    ensures EvalExpr(e, sc).Ok? && r.val == EvalExpr(e, sc).value.val
    ensures |r.scope| > 0 && x in r.scope[0].vars && r.scope[0].vars[x] == r.val
    ensures Get(r.scope, x) == Ok(r.val)
    ensures isConst ==> x in r.scope[0].consts
  {
    DeclarationOutcome(x, e, isConst, sc);
    assert Innermost(r.scope, x, 0);
  }

  /** Declaring a name a second time in the same frame fails. */
  lemma RedeclarationFails(x: string, e1: Expr, c1: bool, e2: Expr, c2: bool, sc: Scope, r: Evaluated)
    requires |sc| > 0 && EvalStmt(VariableDeclarationStmt(x, Some(e1), c1), sc) == Ok(r)
    requires EvalExpr(e2, r.scope).Ok?
    ensures EvalStmt(VariableDeclarationStmt(x, Some(e2), c2), r.scope) == Err(ScopeFailure(Redeclared(x)))
  {
    DeclareThenGet(x, e1, c1, sc, r);
    DeclarationOutcome(x, e2, c2, r.scope);
  }

  /**
    A constant cannot be assigned: once `const x = e` has run, `x = v` fails
    in that scope, whatever `v` is and whatever statements ran in between.
   */
  lemma ConstProtected(x: string, e: Expr, v: Expr, sc: Scope, r: Evaluated, p: Program, m: Evaluated)
    requires |sc| > 0 && EvalStmt(VariableDeclarationStmt(x, Some(e), true), sc) == Ok(r)
    requires EvalProgram(p, r.scope) == Ok(m)
    requires EvalExpr(v, m.scope).Ok?
    ensures EvalExpr(AssignmentExpr(Identifier(x), v), m.scope) == Err(ScopeFailure(ConstReassigned(x)))
  {
    DeclareThenGet(x, e, true, sc, r);
    var a := EvalExpr(v, m.scope).value;
    assert Innermost(a.scope, x, 0);
    AssignmentOutcome(x, v, m.scope, a);
  }

  /* ---------------- Shadowing ---------------- */

  /**
    In a fresh frame a name can always be declared, whatever the enclosing
    frames bind; the outer frames are as the initializer left them (an
    initializer such as `y = 1` may itself assign an outer name).
   */
  lemma ShadowDeclare(x: string, e: Expr, isConst: bool, sc: Scope)
    requires |sc| > 0 && EvalExpr(e, NewScope(sc)).Ok?
    ensures var r := EvalStmt(VariableDeclarationStmt(x, Some(e), isConst), NewScope(sc));
            r.Ok? && r.value.scope[1..] == EvalExpr(e, NewScope(sc)).value.scope[1..]
  {
    var a := EvalExpr(e, NewScope(sc)).value;
    assert a.scope[0].vars.Keys == {};
    DeclarationOutcome(x, e, isConst, NewScope(sc));
  }

  /**
    A `let` shadow of a name is assignable even when the outer binding is a
    constant. The store itself touches no outer frame: the outer frames are
    as evaluating `v` left them.
   */
  lemma ShadowAssignable(x: string, e: Expr, v: Expr, sc: Scope, r: Evaluated)
    requires |sc| > 0
    requires EvalStmt(VariableDeclarationStmt(x, Some(e), false), NewScope(sc)) == Ok(r)
    requires EvalExpr(v, r.scope).Ok?
    ensures var w := EvalExpr(AssignmentExpr(Identifier(x), v), r.scope);
            && w.Ok? && w.value.val == EvalExpr(v, r.scope).value.val
            && w.value.scope[1..] == EvalExpr(v, r.scope).value.scope[1..]
  {
    LetShadowAssignable(x, e, sc, r);
    AssignCurrentFrame(x, v, r.scope, EvalExpr(v, r.scope).value);
  }

  /**
    With an initializer free of assignments, declaring in a fresh frame
    leaves the enclosing frames exactly as they were.
   */
  lemma ShadowDeclarePure(x: string, e: Expr, isConst: bool, sc: Scope)
    requires |sc| > 0 && AssignmentFree(e) && Denote(e, NewScope(sc)).Ok?
    ensures var r := EvalStmt(VariableDeclarationStmt(x, Some(e), isConst), NewScope(sc));
            r.Ok? && r.value.scope[1..] == sc
  {
    EvalDenote(e, NewScope(sc));
    ShadowDeclare(x, e, isConst, sc);
  }

  /**
    With a right-hand side free of assignments, assigning a `let` shadow
    leaves every enclosing frame exactly as the declaration found it.
   */
  lemma ShadowAssignablePure(x: string, e: Expr, v: Expr, sc: Scope, r: Evaluated)
    requires |sc| > 0 && AssignmentFree(v)
    requires EvalStmt(VariableDeclarationStmt(x, Some(e), false), NewScope(sc)) == Ok(r)
    requires Denote(v, r.scope).Ok?
    ensures var w := EvalExpr(AssignmentExpr(Identifier(x), v), r.scope);
            && w.Ok? && w.value.val == Denote(v, r.scope).value
            && w.value.scope[1..] == r.scope[1..]
  {
    LetShadowAssignable(x, e, sc, r);
    EvalDenote(v, r.scope);
    ShadowAssignable(x, e, v, sc, r);
  }

  /** A `let` in a fresh frame binds its name there, not as a constant. */
  lemma LetShadowAssignable(x: string, e: Expr, sc: Scope, r: Evaluated)
    requires |sc| > 0
    requires EvalStmt(VariableDeclarationStmt(x, Some(e), false), NewScope(sc)) == Ok(r)
    ensures |r.scope| > 0 && x in r.scope[0].vars && x !in r.scope[0].consts
  {
    var a0 := EvalExpr(e, NewScope(sc)).value;
    DeclarationOutcome(x, e, false, NewScope(sc));
    assert a0.scope[0].consts == {};
  }

  /** Assigning a name bound, and not constant, in the current frame touches no other frame. */
  lemma AssignCurrentFrame(x: string, v: Expr, sc: Scope, a: Evaluated)
    requires |sc| > 0 && EvalExpr(v, sc) == Ok(a)
    requires x in sc[0].vars && x !in sc[0].consts
    ensures var w := EvalExpr(AssignmentExpr(Identifier(x), v), sc);
            && w.Ok? && w.value.val == a.val
            && w.value.scope[1..] == a.scope[1..]
  {
    assert Innermost(a.scope, x, 0);
    AssignmentOutcome(x, v, sc, a);
    var w := EvalExpr(AssignmentExpr(Identifier(x), v), sc).value;
    assert |w.scope| == |a.scope|;
    forall k | 0 <= k < |w.scope| - 1 ensures w.scope[1..][k] == a.scope[1..][k] {
      assert w.scope[k + 1] == a.scope[k + 1];
    }
  }

  /* ---------------- Programs ---------------- */

  /** Running `a + b` is running `a`, then `b` from where `a` stopped. */
  lemma {:induction false} EvalStatementsAppend(a: seq<Stmt>, b: seq<Stmt>, last: Evaluated)
    requires |last.scope| > 0
    ensures EvalStatements(a + b, last) ==
            match EvalStatements(a, last)
            case Err(err) => Err(err)
            case Ok(m) => EvalStatements(b, m)
    decreases |a|
  {
    if |a| == 0 {
      assert a + b == b;
    } else {
      assert (a + b)[0] == a[0] && (a + b)[1..] == a[1..] + b;
      match EvalStmt(a[0], last.scope)
      case Err(_) =>
      case Ok(s) => EvalStatementsAppend(a[1..], b, s);
    }
  }

  /** The value carried in from before a non-empty run is never seen. */
  lemma EvalStatementsFresh(b: seq<Stmt>, v: Value, w: Value, sc: Scope)
    requires |b| > 0 && |sc| > 0
    ensures EvalStatements(b, Evaluated(v, sc)) == EvalStatements(b, Evaluated(w, sc))
  {
  }

  /**
    A REPL session: running `p1` and then, in the scope it leaves, the
    non-empty `p2` is running `p1 + p2` in one go.
   */
  lemma EvalProgramAppend(p1: Program, p2: Program, sc: Scope)
    requires |sc| > 0 && |p2| > 0
    ensures EvalProgram(p1 + p2, sc) ==
            match EvalProgram(p1, sc)
            case Err(err) => Err(err)
            case Ok(m) => EvalProgram(p2, m.scope)
  {
    EvalStatementsAppend(p1, p2, Evaluated(Null, sc));
    if EvalProgram(p1, sc).Ok? {
      var m := EvalProgram(p1, sc).value;
      EvalStatementsFresh(p2, m.val, Null, m.scope);
    }
  }

  /** The value of a program is the value of its last statement. */
  lemma EvalProgramLast(p: Program, s: Stmt, sc: Scope)
    requires |sc| > 0
    ensures EvalProgram(p + [s], sc) ==
            match EvalProgram(p, sc)
            case Err(err) => Err(err)
            case Ok(m) => EvalStmt(s, m.scope)
  {
    EvalStatementsAppend(p, [s], Evaluated(Null, sc));
  }

  /* ---------------- The global scope ---------------- */

  /** `null`, `true` and `false` read as their values and cannot be assigned. */
  lemma GlobalConstants(v: Expr)
    requires EvalExpr(v, InitGlobalScope()).Ok?
    ensures Get(InitGlobalScope(), "null") == Ok(Null)
    ensures Get(InitGlobalScope(), "true") == Ok(Bool(true))
    ensures Get(InitGlobalScope(), "false") == Ok(Bool(false))
    ensures EvalExpr(AssignmentExpr(Identifier("null"), v), InitGlobalScope()) ==
            Err(ScopeFailure(ConstReassigned("null")))
    ensures EvalExpr(AssignmentExpr(Identifier("true"), v), InitGlobalScope()) ==
            Err(ScopeFailure(ConstReassigned("true")))
    ensures EvalExpr(AssignmentExpr(Identifier("false"), v), InitGlobalScope()) ==
            Err(ScopeFailure(ConstReassigned("false")))
  {
    var g := InitGlobalScope();
    assert Innermost(g, "null", 0) && Innermost(g, "true", 0) && Innermost(g, "false", 0);
    var a := EvalExpr(v, g).value;
    assert Innermost(a.scope, "null", 0) && Innermost(a.scope, "true", 0) && Innermost(a.scope, "false", 0);
    AssignmentOutcome("null", v, g, a);
    AssignmentOutcome("true", v, g, a);
    AssignmentOutcome("false", v, g, a);
  }
}

=== FILE: lexer.dfy ===
/**
  The lexer (frontend/lexer.c): source text to a token sequence that always
  ends in a single end-of-file token.

  The C code walks a NUL-terminated buffer; here `Lex` works on the suffix of
  the input that is still to be read, and `At` returns the terminator `'\0'`
  for a position just past the end, which is what the two-character
  look-aheads (`src[1]`) of the source read there.
 */
module Lexer {
  import opened Results

  datatype TokenKind =
    | Number
    | String
    | Identifier
    | BinaryOperator
    | UnaryOperator
    | OpenParen
    | CloseParen
    | Let
    | Const
    | Equals
    | SemiColon
    | Eof

  /** A token; only the end-of-file token carries no text (NULL in the source). */
  datatype Token = Token(kind: TokenKind, text: Option<string>)

  const EofToken: Token := Token(Eof, None)

  /** The fatal conditions of `tokenize`. */
  datatype LexError =
    | UnterminatedString
      /** end of input inside a block comment, at the given nesting depth */
    | UnclosedComment(depth: nat)
      /** a block comment closed less than two characters before the end of
          input: the source then skips past the terminator */
    | CommentOverrun
    | UnrecognizedCharacter(c: char)

  predicate IsAlpha(c: char) {
    ('A' <= c <= 'Z') || ('a' <= c <= 'z')
  }

  predicate IsNum(c: char) {
    '0' <= c <= '9'
  }

  predicate IsBinop(c: char) {
    c == '+' || c == '-' || c == '*' || c == '/'
  }

  predicate IsSkippable(c: char) {
    c == '\n' || c == ' ' || c == '\t'
  }

  predicate IsIdentStart(c: char) {
    c == '_' || IsAlpha(c)
  }

  predicate IsIdentChar(c: char) {
    IsIdentStart(c) || IsNum(c)
  }

  predicate NotQuote(c: char) {
    c != '"'
  }

  predicate NotNewline(c: char) {
    c != '\n'
  }

  /** A C string: no character of it is the terminator. */
  predicate NoNul(s: string) {
    forall i :: 0 <= i < |s| ==> s[i] != '\0'
  }

  /** The character at offset `i`, or the terminator past the end. */
  function At(s: string, i: nat): char {
    if i < |s| then s[i] else '\0'
  }

  /** Length of the longest prefix of `s` whose characters all satisfy `p`. */
  function SpanLength(s: string, p: char -> bool): (n: nat)
    ensures n <= |s|
    ensures forall k :: 0 <= k < n ==> p(s[k])
    ensures n == |s| || !p(s[n])
  {
    if |s| == 0 || !p(s[0]) then 0 else 1 + SpanLength(s[1..], p)
  }

  /** `binopstr`: the one-character spelling of an arithmetic operator. */
  function BinopText(c: char): (r: string)
    requires IsBinop(c)
    ensures |r| == 1 && r[0] == c
  {
    if c == '+' then "+"
    else if c == '-' then "-"
    else if c == '*' then "*"
    else "/"
  }

  /** The kind of an identifier-shaped word: exactly `let` and `const` are keywords. */
  function WordKind(w: string): (k: TokenKind)
    ensures k == Let <==> w == "let"
    ensures k == Const <==> w == "const"
    ensures k == Let || k == Const || k == Identifier
  {
    if w == "let" then Let
    else if w == "const" then Const
    else Identifier
  }

  predicate IsDigits(w: string) {
    forall k :: 0 <= k < |w| ==> IsNum(w[k])
  }

  predicate IsWord(w: string) {
    && |w| > 0
    && IsIdentStart(w[0])
    && forall k :: 0 <= k < |w| ==> IsIdentChar(w[k])
  }

  predicate IsOperatorText(w: string) {
    w in {"+", "-", "*", "/", ">", ">=", "<", "<=", "=="}
  }

  /**
    The tokens the lexer can emit before the final end-of-file token, each
    with the only texts its kind can carry.
   */
  predicate WellFormedToken(t: Token) {
    && t.text.Some?
    && var w := t.text.value;
    match t.kind
    case Number => |w| > 0 && IsDigits(w)
    case String => NoNul(w) && forall k :: 0 <= k < |w| ==> w[k] != '"'
    case Identifier => IsWord(w) && w != "let" && w != "const"
    case Let => w == "let"
    case Const => w == "const"
    case BinaryOperator => IsOperatorText(w)
    case OpenParen => w == "("
    case CloseParen => w == ")"
    case Equals => w == "="
    case SemiColon => w == ";"
    case UnaryOperator => false
    case Eof => false
  }

  /**
    A successful lexer output: well-formed tokens followed by exactly one
    end-of-file token without text, which therefore occurs nowhere else.
   */
  predicate Terminated(ts: seq<Token>) {
    && |ts| > 0
    && ts[|ts| - 1] == EofToken
    && forall k :: 0 <= k < |ts| - 1 ==> WellFormedToken(ts[k])
  }

  function Prepend(t: Token, rest: Result<seq<Token>, LexError>): Result<seq<Token>, LexError> {
    if rest.Ok? then Ok([t] + rest.value) else rest
  }

  /**
    The body of a block comment, entered at nesting `depth`: every `*` `/`
    closes one level, every `/` `*` opens one, and on reaching depth 0 the
    rest of the input after the final closer is returned.
   */
  function SkipBlockComment(t: string, depth: nat): (r: Result<string, LexError>)
    requires depth > 0
    ensures r.Ok? ==> |r.value| < |t| && r.value == t[|t| - |r.value|..]
    ensures r.Err? ==> r.error.UnclosedComment? && r.error.depth > 0
    decreases |t|
  {
    if |t| == 0 then Err(UnclosedComment(depth))
    else if t[0] == '*' && At(t, 1) == '/' then
      if depth == 1 then Ok(t[2..]) else SkipBlockComment(t[2..], depth - 1)
    else if t[0] == '/' && At(t, 1) == '*' then
      SkipBlockComment(t[2..], depth + 1)
    else
      SkipBlockComment(t[1..], depth)
  }

  /** One step of the scan: the token it emits, if any, and the input left. */
  datatype Step = Step(token: Option<Token>, rest: string)

  /** `t` is a suffix of `s` that is strictly shorter. */
  predicate ProperSuffix(t: string, s: string) {
    |t| < |s| && t == s[|s| - |t|..]
  }

  lemma NoNulSuffix(t: string, s: string)
    requires NoNul(s) && ProperSuffix(t, s)
    ensures NoNul(t)
  {
    forall i | 0 <= i < |t|
      ensures t[i] != '\0'
    {
      assert t[i] == s[|s| - |t| + i];
    }
  }

  /** An identifier or keyword: the maximal run of `_`, letters and digits. */
  function LexWord(s: string): (r: Step)
    requires |s| > 0 && IsIdentStart(s[0])
    ensures r.token.Some? && WellFormedToken(r.token.value) && ProperSuffix(r.rest, s)
  {
    var n := SpanLength(s, IsIdentChar);
    Step(Some(Token(WordKind(s[..n]), Some(s[..n]))), s[n..])
  }

  /** A number: the maximal run of decimal digits. */
  function LexNumber(s: string): (r: Step)
    requires |s| > 0 && IsNum(s[0])
    ensures r.token.Some? && WellFormedToken(r.token.value) && ProperSuffix(r.rest, s)
  {
    var n := SpanLength(s, IsNum);
    Step(Some(Token(Number, Some(s[..n]))), s[n..])
  }

  /** A string literal: everything up to the next double quote, without escapes. */
  function LexString(s: string): (r: Result<Step, LexError>)
    requires |s| > 0 && s[0] == '"' && NoNul(s)
    ensures r.Ok? ==> r.value.token.Some? && WellFormedToken(r.value.token.value)
    ensures r.Ok? ==> ProperSuffix(r.value.rest, s)
  {
    var n := SpanLength(s[1..], NotQuote);
    if n == |s| - 1 then Err(UnterminatedString)
    else
      assert forall k :: 0 <= k < n ==> s[1..n + 1][k] == s[1..][k];
      Ok(Step(Some(Token(String, Some(s[1..n + 1]))), s[n + 2..]))
  }

  /** A block comment opened by the first two characters of `s`. */
  function LexBlockComment(s: string): (r: Result<Step, LexError>)
    requires |s| >= 2 && s[0] == '/' && s[1] == '*'
    ensures r.Ok? ==> r.value.token.None? && ProperSuffix(r.value.rest, s)
  {
    match SkipBlockComment(s[2..], 1)
    case Err(e) => Err(e)
    case Ok(after) =>
      if |after| < 2 then Err(CommentOverrun)
      else Ok(Step(None, after[2..]))
  }

  function Emit(kind: TokenKind, text: string, s: string, width: nat): Step
    requires width <= |s|
  {
    Step(Some(Token(kind, Some(text))), s[width..])
  }

  /** The branch of `tokenize` selected by the first one or two characters of `s`. */
  function NextStep(s: string): (r: Result<Step, LexError>)
    requires |s| > 0 && NoNul(s)
    ensures r.Ok? ==> ProperSuffix(r.value.rest, s)
    ensures r.Ok? && r.value.token.Some? ==> WellFormedToken(r.value.token.value)
  {
    var c := s[0];
    if IsIdentStart(c) then Ok(LexWord(s))
    else if IsNum(c) then Ok(LexNumber(s))
    else if c == '"' then LexString(s)
    else if c == '(' then Ok(Emit(OpenParen, "(", s, 1))
    else if c == ')' then Ok(Emit(CloseParen, ")", s, 1))
    else if c == '>' then
      if At(s, 1) == '=' then Ok(Emit(BinaryOperator, ">=", s, 2))
      else Ok(Emit(BinaryOperator, ">", s, 1))
    else if c == '<' then
      if At(s, 1) == '=' then Ok(Emit(BinaryOperator, "<=", s, 2))
      else Ok(Emit(BinaryOperator, "<", s, 1))
    else if c == '=' then
      if At(s, 1) == '=' then Ok(Emit(BinaryOperator, "==", s, 2))
      else Ok(Emit(Equals, "=", s, 1))
    else if c == ';' then Ok(Emit(SemiColon, ";", s, 1))
    else if c == '/' && At(s, 1) == '/' then
      Ok(Step(None, s[SpanLength(s, NotNewline)..]))
    else if c == '/' && At(s, 1) == '*' then
      LexBlockComment(s)
    else if IsBinop(c) then Ok(Emit(BinaryOperator, BinopText(c), s, 1))
    else if IsSkippable(c) then Ok(Step(None, s[1..]))
    else Err(UnrecognizedCharacter(c))
  }

  /** `tokenize`: the tokens of `s`, or the first lexical error. */
  function Lex(s: string): (r: Result<seq<Token>, LexError>)
    requires NoNul(s)
    ensures r.Ok? ==> Terminated(r.value)
    decreases |s|
  {
    if |s| == 0 then Ok([EofToken])
    else
      match NextStep(s)
      case Err(e) => Err(e)
      case Ok(step) =>
        NoNulSuffix(step.rest, s);
        var rest := Lex(step.rest);
        if step.token.Some? then Prepend(step.token.value, rest) else rest
  }
}

=== FILE: lexer_props.dfy ===
/**
  Properties of the lexer: how each kind of lexeme is cut from the input,
  comment and whitespace skipping, the error cases, and a round trip that
  lexes any well-formed token sequence back from its spelling.
 */
module LexerProps {
  import opened Results
  import opened Lexer

  /** `SpanLength` is the only length with its three properties. */
  lemma {:induction false} SpanLengthUnique(s: string, p: char -> bool, n: nat)
    requires n <= |s|
    requires forall k :: 0 <= k < n ==> p(s[k])
    requires n == |s| || !p(s[n])
    ensures SpanLength(s, p) == n
    decreases n
  {
    if n > 0 {
      assert forall k :: 0 <= k < n - 1 ==> s[1..][k] == s[k + 1];
      SpanLengthUnique(s[1..], p, n - 1);
    }
  }

  lemma NoNulConcat(a: string, b: string)
    requires NoNul(a) && NoNul(b)
    ensures NoNul(a + b)
  {
    forall i | 0 <= i < |a + b|
      ensures (a + b)[i] != '\0'
    {
      if i < |a| {
        assert (a + b)[i] == a[i];
      } else {
        assert (a + b)[i] == b[i - |a|];
      }
    }
  }

  /** One step of `Lex`: the token of `NextStep`, if any, then the rest lexed. */
  lemma LexStep(s: string, step: Step)
    requires |s| > 0 && NoNul(s) && NextStep(s) == Ok(step)
    ensures NoNul(step.rest)
    ensures Lex(s) == if step.token.Some? then Prepend(step.token.value, Lex(step.rest)) else Lex(step.rest)
  {
    NoNulSuffix(step.rest, s);
  }

  /** Characters that begin no lexeme and are not skipped. */
  predicate Unrecognized(c: char) {
    && c != '\0'
    && !IsIdentStart(c) && !IsNum(c) && !IsSkippable(c) && !IsBinop(c)
    && c != '"' && c != '(' && c != ')' && c != '>' && c != '<' && c != '=' && c != ';'
  }

  /** Any other character is a fatal error naming that character. */
  lemma LexUnrecognized(c: char, rest: string)
    requires Unrecognized(c) && NoNul(rest)
    ensures NoNul([c] + rest)
    ensures Lex([c] + rest) == Err(UnrecognizedCharacter(c))
  {
    NoNulConcat([c], rest);
    assert NextStep([c] + rest) == Err(UnrecognizedCharacter(c));
    LexFails([c] + rest);
  }

  /** Space, tab and newline produce no token. */
  lemma LexSkippable(c: char, rest: string)
    requires IsSkippable(c) && NoNul(rest)
    ensures NoNul([c] + rest)
    ensures Lex([c] + rest) == Lex(rest)
  {
    SkippableStep(c, rest);
    LexStep([c] + rest, Step(None, rest));
  }

  lemma SkippableStep(c: char, rest: string)
    requires IsSkippable(c) && NoNul(rest)
    ensures NoNul([c] + rest)
    ensures NextStep([c] + rest) == Ok(Step(None, rest))
  {
    NoNulConcat([c], rest);
    var s := [c] + rest;
    assert s[0] == c && s[1..] == rest;
  }

  /**
    An identifier is a maximal run of `_`, letters and digits starting with
    `_` or a letter; the words `let` and `const` become keyword tokens.
   */
  lemma LexWordRun(w: string, rest: string)
    requires IsWord(w) && NoNul(rest)
    requires rest == [] || !IsIdentChar(rest[0])
    ensures NoNul(w + rest)
    ensures Lex(w + rest) == Prepend(Token(WordKind(w), Some(w)), Lex(rest))
  {
    WordRunStep(w, rest);
    LexStep(w + rest, Step(Some(Token(WordKind(w), Some(w))), rest));
  }

  lemma WordRunStep(w: string, rest: string)
    requires IsWord(w) && NoNul(rest)
    requires rest == [] || !IsIdentChar(rest[0])
    ensures NoNul(w + rest)
    ensures NextStep(w + rest) == Ok(Step(Some(Token(WordKind(w), Some(w))), rest))
  {
    NoNulConcat(w, rest);
    var s := w + rest;
    assert forall k :: 0 <= k < |w| ==> s[k] == w[k];
    SpanLengthUnique(s, IsIdentChar, |w|);
    assert s[..|w|] == w;
    assert s[|w|..] == rest;
  }

  /** A number is the maximal run of decimal digits, kept as its text. */
  lemma LexNumberRun(w: string, rest: string)
    requires |w| > 0 && IsDigits(w) && NoNul(rest)
    requires rest == [] || !IsNum(rest[0])
    ensures NoNul(w + rest)
    ensures Lex(w + rest) == Prepend(Token(Number, Some(w)), Lex(rest))
  {
    NumberRunStep(w, rest);
    LexStep(w + rest, Step(Some(Token(Number, Some(w))), rest));
  }

  lemma NumberRunStep(w: string, rest: string)
    requires |w| > 0 && IsDigits(w) && NoNul(rest)
    requires rest == [] || !IsNum(rest[0])
    ensures NoNul(w + rest)
    ensures NextStep(w + rest) == Ok(Step(Some(Token(Number, Some(w))), rest))
  {
    NoNulConcat(w, rest);
    var s := w + rest;
    assert forall k :: 0 <= k < |w| ==> s[k] == w[k];
    SpanLengthUnique(s, IsNum, |w|);
    assert s[..|w|] == w;
    assert s[|w|..] == rest;
  }

  predicate QuoteFree(w: string) {
    forall k :: 0 <= k < |w| ==> w[k] != '"'
  }

  /** A string literal's text is exactly what lies between the quotes. */
  lemma LexStringLiteral(w: string, rest: string)
    requires QuoteFree(w) && NoNul(w) && NoNul(rest)
    ensures NoNul("\"" + w + "\"" + rest)
    ensures Lex("\"" + w + "\"" + rest) == Prepend(Token(String, Some(w)), Lex(rest))
  {
    StringLiteralStep(w, rest);
    LexStep("\"" + w + "\"" + rest, Step(Some(Token(String, Some(w))), rest));
  }

  lemma StringLiteralStep(w: string, rest: string)
    requires QuoteFree(w) && NoNul(w) && NoNul(rest)
    ensures NoNul("\"" + w + "\"" + rest)
    ensures NextStep("\"" + w + "\"" + rest) == Ok(Step(Some(Token(String, Some(w))), rest))
  {
    NoNulConcat("\"", w);
    NoNulConcat("\"" + w, "\"");
    NoNulConcat("\"" + w + "\"", rest);
    var s := "\"" + w + "\"" + rest;
    assert s[1..] == w + "\"" + rest;
    SpanLengthUnique(s[1..], NotQuote, |w|);
    assert s[1..|w| + 1] == w;
    assert s[|w| + 2..] == rest;
    var step := Step(Some(Token(String, Some(w))), rest);
    assert LexString(s) == Ok(step);
    assert NextStep(s) == Ok(step);
  }

  /** A string literal without closing quote is an error. */
  lemma LexUnterminatedString(w: string)
    requires QuoteFree(w) && NoNul(w)
    ensures NoNul("\"" + w)
    ensures Lex("\"" + w) == Err(UnterminatedString)
  {
    NoNulConcat("\"", w);
    UnterminatedStringStep(w);
    LexFails("\"" + w);
  }

  lemma UnterminatedStringStep(w: string)
    requires QuoteFree(w) && NoNul(w) && NoNul("\"" + w)
    ensures NextStep("\"" + w) == Err(UnterminatedString)
  {
    var s := "\"" + w;
    assert s[1..] == w;
    SpanLengthUnique(s[1..], NotQuote, |w|);
  }

  /** `>=`, `<=` and `==` are taken as one operator, before `>`, `<` and `=`. */
  lemma LexTwoCharOperator(c: char, rest: string)
    requires (c == '>' || c == '<' || c == '=') && NoNul(rest)
    ensures NoNul([c, '='] + rest)
    ensures Lex([c, '='] + rest) == Prepend(Token(BinaryOperator, Some([c, '='])), Lex(rest))
  {
    TwoCharOperatorStep(c, rest);
    LexStep([c, '='] + rest, Step(Some(Token(BinaryOperator, Some([c, '=']))), rest));
  }

  lemma TwoCharOperatorStep(c: char, rest: string)
    requires (c == '>' || c == '<' || c == '=') && NoNul(rest)
    ensures NoNul([c, '='] + rest)
    ensures NextStep([c, '='] + rest) == Ok(Step(Some(Token(BinaryOperator, Some([c, '=']))), rest))
  {
    NoNulConcat([c, '='], rest);
    var s := [c, '='] + rest;
    assert s[0] == c && At(s, 1) == '=' && s[2..] == rest;
  }

  /** A `>` or `<` not followed by `=` is a one-character operator. */
  lemma LexComparison(c: char, rest: string)
    requires (c == '>' || c == '<') && NoNul(rest)
    requires rest == [] || rest[0] != '='
    ensures NoNul([c] + rest)
    ensures Lex([c] + rest) == Prepend(Token(BinaryOperator, Some([c])), Lex(rest))
  {
    ComparisonStep(c, rest);
    LexStep([c] + rest, Step(Some(Token(BinaryOperator, Some([c]))), rest));
  }

  lemma ComparisonStep(c: char, rest: string)
    requires (c == '>' || c == '<') && NoNul(rest)
    requires rest == [] || rest[0] != '='
    ensures NoNul([c] + rest)
    ensures NextStep([c] + rest) == Ok(Step(Some(Token(BinaryOperator, Some([c]))), rest))
  {
    NoNulConcat([c], rest);
    var s := [c] + rest;
    assert s[0] == c && At(s, 1) != '=' && s[1..] == rest;
  }

  /** A lone `=` is the assignment token, not an operator. */
  lemma LexLoneEquals(rest: string)
    requires NoNul(rest)
    requires rest == [] || rest[0] != '='
    ensures NoNul("=" + rest)
    ensures Lex("=" + rest) == Prepend(Token(Equals, Some("=")), Lex(rest))
  {
    LoneEqualsStep(rest);
    LexStep("=" + rest, Step(Some(Token(Equals, Some("="))), rest));
  }

  lemma LoneEqualsStep(rest: string)
    requires NoNul(rest)
    requires rest == [] || rest[0] != '='
    ensures NoNul("=" + rest)
    ensures NextStep("=" + rest) == Ok(Step(Some(Token(Equals, Some("="))), rest))
  {
    NoNulConcat("=", rest);
    var s := "=" + rest;
    assert s[0] == '=' && At(s, 1) != '=' && s[1..] == rest;
  }

  /** `+`, `-`, `*` and `/` are one-character operators, `/` only when no comment starts. */
  lemma LexArithmetic(c: char, rest: string)
    requires IsBinop(c) && NoNul(rest)
    requires c == '/' ==> rest == [] || (rest[0] != '/' && rest[0] != '*')
    ensures NoNul([c] + rest)
    ensures Lex([c] + rest) == Prepend(Token(BinaryOperator, Some([c])), Lex(rest))
  {
    ArithmeticStep(c, rest);
    LexStep([c] + rest, Step(Some(Token(BinaryOperator, Some([c]))), rest));
  }

  lemma ArithmeticStep(c: char, rest: string)
    requires IsBinop(c) && NoNul(rest)
    requires c == '/' ==> rest == [] || (rest[0] != '/' && rest[0] != '*')
    ensures NoNul([c] + rest)
    ensures NextStep([c] + rest) == Ok(Step(Some(Token(BinaryOperator, Some([c]))), rest))
  {
    NoNulConcat([c], rest);
    var s := [c] + rest;
    assert s[0] == c && s[1..] == rest;
    assert c == '/' ==> At(s, 1) != '/' && At(s, 1) != '*';
    var text := BinopText(c);
    assert text == [c];
  }

  /** Each of `(`, `)` and `;` is a token of its own kind. */
  lemma LexPunctuation(c: char, rest: string)
    requires (c == '(' || c == ')' || c == ';') && NoNul(rest)
    ensures NoNul([c] + rest)
    ensures Lex([c] + rest) ==
            Prepend(Token(if c == '(' then OpenParen else if c == ')' then CloseParen else SemiColon, Some([c])), Lex(rest))
  {
    PunctuationStep(c, rest);
    LexStep([c] + rest, Step(Some(Token(if c == '(' then OpenParen else if c == ')' then CloseParen else SemiColon, Some([c]))), rest));
  }

  lemma PunctuationStep(c: char, rest: string)
    requires (c == '(' || c == ')' || c == ';') && NoNul(rest)
    ensures NoNul([c] + rest)
    ensures NextStep([c] + rest) == Ok(Step(Some(Token(if c == '(' then OpenParen else if c == ')' then CloseParen else SemiColon, Some([c]))), rest))
  {
    NoNulConcat([c], rest);
    var s := [c] + rest;
    assert s[0] == c && s[1..] == rest;
  }

  predicate NewlineFree(c: string) {
    forall k :: 0 <= k < |c| ==> c[k] != '\n'
  }

  /** A `//` comment runs up to, not including, the next newline. */
  lemma LexLineComment(c: string, rest: string)
    requires NewlineFree(c) && NoNul(c) && NoNul(rest)
    ensures NoNul("//" + c + "\n" + rest)
    ensures Lex("//" + c + "\n" + rest) == Lex("\n" + rest)
  {
    LineCommentStep(c, rest);
    LexStep("//" + c + "\n" + rest, Step(None, "\n" + rest));
  }

  lemma LineCommentStep(c: string, rest: string)
    requires NewlineFree(c) && NoNul(c) && NoNul(rest)
    ensures NoNul("//" + c + "\n" + rest)
    ensures NextStep("//" + c + "\n" + rest) == Ok(Step(None, "\n" + rest))
  {
    NoNulConcat("//", c);
    NoNulConcat("//" + c, "\n" + rest);
    assert "//" + c + "\n" + rest == ("//" + c) + ("\n" + rest);
    var s := "//" + c + "\n" + rest;
    assert forall k :: 2 <= k < |c| + 2 ==> s[k] == c[k - 2];
    SpanLengthUnique(s, NotNewline, |c| + 2);
    assert s[|c| + 2..] == "\n" + rest;
  }

  /** A `//` comment at the end of input leaves only the end-of-file token. */
  lemma LexTrailingLineComment(c: string)
    requires NewlineFree(c) && NoNul(c)
    ensures NoNul("//" + c)
    ensures Lex("//" + c) == Ok([EofToken])
  {
    TrailingLineCommentStep(c);
    LexStep("//" + c, Step(None, []));
  }

  lemma TrailingLineCommentStep(c: string)
    requires NewlineFree(c) && NoNul(c)
    ensures NoNul("//" + c)
    ensures NextStep("//" + c) == Ok(Step(None, []))
  {
    NoNulConcat("//", c);
    var s := "//" + c;
    assert forall k :: 2 <= k < |c| + 2 ==> s[k] == c[k - 2];
    SpanLengthUnique(s, NotNewline, |c| + 2);
    assert s[|c| + 2..] == [];
  }

  /** Comment text that neither opens nor closes a comment level. */
  predicate Plain(b: string) {
    forall k :: 0 <= k < |b| ==> b[k] != '*' && b[k] != '/' && b[k] != '\0'
  }

  lemma {:induction false} SkipPlain(b: string, t: string, depth: nat)
    requires depth > 0 && Plain(b)
    ensures SkipBlockComment(b + t, depth) == SkipBlockComment(t, depth)
    decreases |b|
  {
    if |b| == 0 {
      assert b + t == t;
    } else {
      assert (b + t)[1..] == b[1..] + t;
      SkipPlain(b[1..], t, depth);
    }
  }

  lemma PlainNoNul(b: string)
    requires Plain(b)
    ensures NoNul(b)
  {
  }

  /** An opener inside a comment raises the depth by one. */
  lemma SkipOpener(u: string, depth: nat)
    requires depth > 0
    ensures SkipBlockComment("/*" + u, depth) == SkipBlockComment(u, depth + 1)
  {
    assert ("/*" + u)[2..] == u;
  }

  /** A closer lowers the depth by one, and at depth 1 ends the comment. */
  lemma SkipCloser(u: string, depth: nat)
    requires depth > 0
    ensures SkipBlockComment("*/" + u, depth) == if depth == 1 then Ok(u) else SkipBlockComment(u, depth - 1)
  {
    assert ("*/" + u)[2..] == u;
  }

  /**
    A block comment whose body (after the opener) ends `depth` 1 at the start
    of `xy + rest`: the two characters `xy` after it are skipped as well.
   */
  lemma LexClosedComment(body: string, xy: string, rest: string)
    requires NoNul(body) && |xy| == 2 && NoNul(xy) && NoNul(rest)
    requires SkipBlockComment(body + (xy + rest), 1) == Ok(xy + rest)
    ensures NoNul("/*" + body + xy + rest)
    ensures Lex("/*" + body + xy + rest) == Lex(rest)
  {
    var t := body + (xy + rest);
    CommentRegroup(body, xy, rest);
    ClosedCommentStep(t, xy + rest, rest);
    LexStep("/*" + t, Step(None, rest));
  }

  /** The text of a closed comment and what follows it, regrouped around the comment's body. */
  lemma CommentRegroup(body: string, xy: string, rest: string)
    requires NoNul(body) && NoNul(xy) && NoNul(rest)
    ensures "/*" + body + xy + rest == "/*" + (body + (xy + rest))
    ensures NoNul("/*" + (body + (xy + rest)))
  {
    NoNulConcat(xy, rest);
    NoNulConcat(body, xy + rest);
    NoNulConcat("/*", body + (xy + rest));
  }

  lemma ClosedCommentStep(t: string, u: string, rest: string)
    requires NoNul("/*" + t) && |u| >= 2 && u[2..] == rest
    requires SkipBlockComment(t, 1) == Ok(u)
    ensures NextStep("/*" + t) == Ok(Step(None, rest))
  {
    var s := "/*" + t;
    assert s[0] == '/' && s[1] == '*' && s[2..] == t;
    assert LexBlockComment(s) == Ok(Step(None, rest));
  }

  /** A block comment that never returns to depth 0 is the lexer's error. */
  lemma LexOpenComment(body: string)
    requires NoNul(body) && SkipBlockComment(body, 1).Err?
    ensures NoNul("/*" + body)
    ensures Lex("/*" + body) == Err(SkipBlockComment(body, 1).error)
  {
    NoNulConcat("/*", body);
    OpenerStep(body);
    LexFails("/*" + body);
  }

  /**
    After the closing `*` `/` of a block comment the source skips two more
    characters, so what follows the comment is not preserved.
   */
  lemma LexBlockCommentSwallowsTwo(b: string, xy: string, rest: string)
    requires Plain(b) && |xy| == 2 && NoNul(xy) && NoNul(rest)
    ensures NoNul("/*" + (b + "*/") + xy + rest)
    ensures Lex("/*" + (b + "*/") + xy + rest) == Lex(rest)
  {
    var u := xy + rest;
    PlainNoNul(b);
    NoNulConcat(b, "*/");
    assert (b + "*/") + u == b + ("*/" + u);
    SkipPlain(b, "*/" + u, 1);
    SkipCloser(u, 1);
    LexClosedComment(b + "*/", xy, rest);
  }

  /** Block comments nest: an inner opener needs its own closer. */
  lemma LexNestedBlockComment(b1: string, b2: string, b3: string, xy: string, rest: string)
    requires Plain(b1) && Plain(b2) && Plain(b3) && |xy| == 2 && NoNul(xy) && NoNul(rest)
    ensures NoNul("/*" + (b1 + "/*" + b2 + "*/" + b3 + "*/") + xy + rest)
    ensures Lex("/*" + (b1 + "/*" + b2 + "*/" + b3 + "*/") + xy + rest) == Lex(rest)
  {
    var u := xy + rest;
    var body := b1 + "/*" + b2 + "*/" + b3 + "*/";
    PlainNoNul(b1);
    PlainNoNul(b2);
    PlainNoNul(b3);
    NoNulConcat(b1, "/*");
    NoNulConcat(b1 + "/*", b2);
    NoNulConcat(b1 + "/*" + b2, "*/");
    NoNulConcat(b1 + "/*" + b2 + "*/", b3);
    NoNulConcat(b1 + "/*" + b2 + "*/" + b3, "*/");
    var t3 := "*/" + u;
    var t2 := "*/" + (b3 + t3);
    var t1 := "/*" + (b2 + t2);
    assert body + u == b1 + t1;
    SkipPlain(b1, t1, 1);
    SkipOpener(b2 + t2, 1);
    SkipPlain(b2, t2, 2);
    SkipCloser(b3 + t3, 2);
    SkipPlain(b3, t3, 1);
    SkipCloser(u, 1);
    LexClosedComment(body, xy, rest);
  }

  /** End of input inside a block comment is an error at depth 1 ... */
  lemma LexUnclosedComment(b: string)
    requires Plain(b)
    ensures NoNul("/*" + b)
    ensures Lex("/*" + b) == Err(UnclosedComment(1))
  {
    PlainNoNul(b);
    assert b + [] == b;
    SkipPlain(b, [], 1);
    LexOpenComment(b);
  }

  /** ... and at the depth reached when comments are nested. */
  lemma LexUnclosedNestedComment(b1: string, b2: string)
    requires Plain(b1) && Plain(b2)
    ensures NoNul("/*" + (b1 + "/*" + b2))
    ensures Lex("/*" + (b1 + "/*" + b2)) == Err(UnclosedComment(2))
  {
    PlainNoNul(b1);
    PlainNoNul(b2);
    NoNulConcat(b1, "/*");
    NoNulConcat(b1 + "/*", b2);
    var t1 := "/*" + b2;
    assert b1 + "/*" + b2 == b1 + t1;
    SkipPlain(b1, t1, 1);
    SkipOpener(b2, 1);
    assert b2 + [] == b2;
    SkipPlain(b2, [], 2);
    LexOpenComment(b1 + "/*" + b2);
  }

  /**
    A block comment whose closer leaves fewer than two characters would make
    the scan skip past the terminator; the model reports it as an error,
    whatever the body holds, nested comments included.
   */
  lemma LexCommentAtEnd(body: string, tail: string)
    requires NoNul(body) && SkipBlockComment(body, 1) == Ok(tail) && |tail| < 2
    ensures NoNul("/*" + body)
    ensures Lex("/*" + body) == Err(CommentOverrun)
  {
    CommentAtEndStep(body, tail);
    LexFails("/*" + body);
  }

  lemma CommentAtEndStep(body: string, tail: string)
    requires NoNul(body) && SkipBlockComment(body, 1) == Ok(tail) && |tail| < 2
    ensures NoNul("/*" + body)
    ensures NextStep("/*" + body) == Err(CommentOverrun)
  {
    NoNulConcat("/*", body);
    OpenerStep(body);
  }

  /** In particular a plain comment closed less than two characters before the end. */
  lemma LexPlainCommentAtEnd(b: string, tail: string)
    requires Plain(b) && |tail| < 2 && NoNul(tail)
    ensures NoNul("/*" + b + "*/" + tail)
    ensures Lex("/*" + b + "*/" + tail) == Err(CommentOverrun)
  {
    PlainNoNul(b);
    NoNulConcat(b, "*/");
    NoNulConcat(b + "*/", tail);
    CommentAtEndSkip(b, tail);
    LexCommentAtEnd(b + "*/" + tail, tail);
    assert "/*" + b + "*/" + tail == "/*" + (b + "*/" + tail);
  }

  lemma CommentAtEndSkip(b: string, tail: string)
    requires Plain(b)
    ensures SkipBlockComment(b + "*/" + tail, 1) == Ok(tail)
  {
    assert b + "*/" + tail == b + ("*/" + tail);
    SkipPlain(b, "*/" + tail, 1);
    SkipCloser(tail, 1);
  }

  /** Input that opens a block comment takes the comment branch. */
  lemma OpenerStep(t: string)
    requires NoNul("/*" + t)
    ensures ("/*" + t)[2..] == t
    ensures NextStep("/*" + t) == LexBlockComment("/*" + t)
  {
    var s := "/*" + t;
    assert s[0] == '/' && s[1] == '*' && s[2..] == t;
  }

  /** An error in the first step is the error of the whole scan. */
  lemma LexFails(s: string)
    requires |s| > 0 && NoNul(s) && NextStep(s).Err?
    ensures Lex(s) == Err(NextStep(s).error)
  {
  }

  /** How a token is written back as source text. */
  function Spelling(t: Token): string
    requires WellFormedToken(t)
  {
    if t.kind == String then "\"" + t.text.value + "\"" else t.text.value
  }

  /** Tokens written back as source text, each followed by one space. */
  function Render(ts: seq<Token>): string
    requires forall k :: 0 <= k < |ts| ==> WellFormedToken(ts[k])
  {
    if |ts| == 0 then "" else Spelling(ts[0]) + " " + Render(ts[1..])
  }

  lemma SpellingNoNul(t: Token)
    requires WellFormedToken(t)
    ensures NoNul(Spelling(t))
  {
    if t.kind == String {
      NoNulConcat("\"", t.text.value);
      NoNulConcat("\"" + t.text.value, "\"");
    }
  }

  lemma RenderCons(ts: seq<Token>)
    requires |ts| > 0 && forall k :: 0 <= k < |ts| ==> WellFormedToken(ts[k])
    ensures Render(ts) == Spelling(ts[0]) + (" " + Render(ts[1..]))
  {
  }

  lemma {:induction false} RenderNoNul(ts: seq<Token>)
    requires forall k :: 0 <= k < |ts| ==> WellFormedToken(ts[k])
    ensures NoNul(Render(ts))
  {
    if |ts| > 0 {
      RenderNoNul(ts[1..]);
      SpellingNoNul(ts[0]);
      NoNulConcat(Spelling(ts[0]), " ");
      NoNulConcat(Spelling(ts[0]) + " ", Render(ts[1..]));
    }
  }

  /** Operator spellings lex back to themselves. */
  lemma LexOperatorText(w: string, rest: string)
    requires IsOperatorText(w) && NoNul(rest) && |rest| > 0 && rest[0] == ' '
    ensures NoNul(w + rest)
    ensures Lex(w + rest) == Prepend(Token(BinaryOperator, Some(w)), Lex(rest))
  {
    if |w| == 2 {
      assert w == [w[0], '='];
      LexTwoCharOperator(w[0], rest);
    } else if w[0] == '>' || w[0] == '<' {
      assert w == [w[0]];
      LexComparison(w[0], rest);
    } else {
      assert w == [w[0]];
      LexArithmetic(w[0], rest);
    }
  }

  /** Word spellings lex back to themselves. */
  lemma LexWordToken(t: Token, rest: string)
    requires WellFormedToken(t) && (t.kind == Identifier || t.kind == Let || t.kind == Const)
    requires NoNul(rest) && |rest| > 0 && rest[0] == ' '
    ensures NoNul(t.text.value + rest)
    ensures Lex(t.text.value + rest) == Prepend(t, Lex(rest))
  {
    WordTokenKind(t);
    LexWordRun(t.text.value, rest);
  }

  /** The text of an identifier or keyword token is a word of that kind. */
  lemma WordTokenKind(t: Token)
    requires WellFormedToken(t) && (t.kind == Identifier || t.kind == Let || t.kind == Const)
    ensures IsWord(t.text.value) && WordKind(t.text.value) == t.kind
  {
    var w := t.text.value;
    if t.kind == Let {
      assert w == "let";
      assert IsWord(w) by {
        assert w[0] == 'l' && w[1] == 'e' && w[2] == 't';
      }
    } else if t.kind == Const {
      assert w == "const";
      assert IsWord(w) by {
        assert w[0] == 'c' && w[1] == 'o' && w[2] == 'n' && w[3] == 's' && w[4] == 't';
      }
    }
  }

  /** Lexing a token's spelling followed by a space yields that token first. */
  lemma LexSpelling(t: Token, rest: string)
    requires WellFormedToken(t) && NoNul(rest) && |rest| > 0 && rest[0] == ' '
    ensures NoNul(Spelling(t) + rest)
    ensures Lex(Spelling(t) + rest) == Prepend(t, Lex(rest))
  {
    var w := t.text.value;
    match t.kind
    case Number => LexNumberRun(w, rest);
    case String => LexStringLiteral(w, rest);
    case Identifier => LexWordToken(t, rest);
    case Let => LexWordToken(t, rest);
    case Const => LexWordToken(t, rest);
    case OpenParen => LexPunctuation('(', rest);
    case CloseParen => LexPunctuation(')', rest);
    case SemiColon => LexPunctuation(';', rest);
    case Equals => LexLoneEquals(rest);
    case BinaryOperator => LexOperatorText(w, rest);
  }

  /**
    Round trip: every sequence of well-formed tokens is what the lexer reads
    back from its spelling, so the lexer's outputs are exactly the
    well-formed sequences closed by one end-of-file token.
   */
  lemma {:induction false} LexRender(ts: seq<Token>)
    requires forall k :: 0 <= k < |ts| ==> WellFormedToken(ts[k])
    ensures NoNul(Render(ts))
    ensures Lex(Render(ts)) == Ok(ts + [EofToken])
  {
    if |ts| > 0 {
      RenderStep(ts);
      LexRender(ts[1..]);
      ConsAppend(ts, EofToken);
    } else {
      assert ts + [EofToken] == [EofToken];
    }
  }

  lemma ConsAppend<T>(ts: seq<T>, x: T)
    requires |ts| > 0
    ensures ts + [x] == [ts[0]] + (ts[1..] + [x])
  {
  }

  /** The rendering of a non-empty sequence lexes to its first token, then the rest. */
  lemma RenderStep(ts: seq<Token>)
    requires |ts| > 0 && forall k :: 0 <= k < |ts| ==> WellFormedToken(ts[k])
    ensures NoNul(Render(ts)) && NoNul(Render(ts[1..]))
    ensures Lex(Render(ts)) == Prepend(ts[0], Lex(Render(ts[1..])))
  {
    var rest := Render(ts[1..]);
    RenderNoNul(ts[1..]);
    LexSkippable(' ', rest);
    LexSpelling(ts[0], " " + rest);
    RenderCons(ts);
  }
}

=== FILE: parser.dfy ===
/**
  The recursive-descent parser (frontend/parser.c).

  The parser state of the source (a token array and a cursor) is the pair
  `toks`, `pos`; every parsing function returns the node it built together
  with the position of the first token it did not consume. Operators are
  recognised by their text alone, never by their token kind, exactly as the
  `strcmp` tests of the source do.
 */
module Parser {
  import opened Results
  import opened Lexer
  import opened Ast

  datatype ParseError =
    | ExpectedIdentifier
    | ConstWithoutValue
    | ExpectedCloseParen
      /** the end-of-file token where an expression operand was expected */
    | UnexpectedEndOfInput
    | UnexpectedToken(kind: TokenKind)

  /** A node together with the position just after the tokens it was built from. */
  datatype Parsed<T> = Parsed(node: T, next: nat)

  /** The largest value of a C `int`: `atoi` is only defined up to here. */
  const IntMax: int := 0x7fff_ffff

  function DigitValue(c: char): nat
    requires IsNum(c)
  {
    (c as int) - ('0' as int)
  }

  /** The natural number a string of decimal digits denotes (`atoi`). */
  function DigitsValue(w: string): nat
    requires IsDigits(w)
    decreases |w|
  {
    if |w| == 0 then 0
    else 10 * DigitsValue(w[..|w| - 1]) + DigitValue(w[|w| - 1])
  }

  /**
    A token the parser can be handed: only end-of-file lacks text, and a
    number token is a digit string whose value fits in an `int`.
   */
  predicate Fits(t: Token) {
    && (t.kind == Eof <==> t.text.None?)
    && (t.kind == Number ==>
          |t.text.value| > 0 && IsDigits(t.text.value) && DigitsValue(t.text.value) <= IntMax)
  }

  /** A token sequence the parser can read without running off its end. */
  predicate Parsable(toks: seq<Token>) {
    && |toks| > 0
    && toks[|toks| - 1].kind == Eof
    && forall k :: 0 <= k < |toks| ==> Fits(toks[k])
  }

  predicate IsAdditiveText(text: Option<string>) {
    text == Some("+") || text == Some("-")
  }

  predicate IsMultiplicativeText(text: Option<string>) {
    text == Some("*") || text == Some("/")
  }

  /**
    The tokens some parsing rule can consume: anything but end-of-file, and
    among operator tokens only those spelled `+`, `-`, `*` or `/`.
   */
  predicate Consumable(t: Token) {
    && t.kind != Eof
    && ((t.kind == BinaryOperator || t.kind == UnaryOperator) ==>
          IsAdditiveText(t.text) || IsMultiplicativeText(t.text))
  }

  predicate ConsumedOnly(toks: seq<Token>, from: nat, to: nat)
    requires from <= to <= |toks|
  {
    forall k :: from <= k < to ==> Consumable(toks[k])
  }

  /** A successful parse consumed at least one token, all consumable, and stopped before the end. */
  predicate Advanced<T>(toks: seq<Token>, pos: nat, r: Result<Parsed<T>, ParseError>) {
    r.Ok? ==> pos < r.value.next < |toks| && ConsumedOnly(toks, pos, r.value.next)
  }

  /** The token kinds `parse_primary_expr` accepts. */
  predicate StartsPrimary(t: Token) {
    t.kind == Lexer.Identifier || t.kind == Number || t.kind == String || t.kind == OpenParen
  }

  /** `parse_expr` */
  function ParseExpr(toks: seq<Token>, pos: nat): (r: Result<Parsed<Expr>, ParseError>)
    requires Parsable(toks) && pos < |toks|
    ensures Advanced(toks, pos, r)
    ensures r.Ok? ==> StartsPrimary(toks[pos])
    decreases |toks| - pos, 5
  {
    ParseAssignment(toks, pos)
  }

  /** `parse_assignment_expr`: `additive ("=" expr)?`, so assignment nests to the right. */
  function ParseAssignment(toks: seq<Token>, pos: nat): (r: Result<Parsed<Expr>, ParseError>)
    requires Parsable(toks) && pos < |toks|
    ensures Advanced(toks, pos, r)
    ensures r.Ok? ==> StartsPrimary(toks[pos])
    decreases |toks| - pos, 4
  {
    var target :- ParseAdditive(toks, pos);
    if toks[target.next].kind == Equals then
      var value :- ParseExpr(toks, target.next + 1);
      Ok(Parsed(AssignmentExpr(target.node, value.node), value.next))
    else
      Ok(target)
  }

  /** `parse_additive_expr`: `multiplicative (("+"|"-") multiplicative)*`. */
  function ParseAdditive(toks: seq<Token>, pos: nat): (r: Result<Parsed<Expr>, ParseError>)
    requires Parsable(toks) && pos < |toks|
    ensures Advanced(toks, pos, r)
    ensures r.Ok? ==> StartsPrimary(toks[pos])
    decreases |toks| - pos, 3
  {
    var left :- ParseMultiplicative(toks, pos);
    ParseAdditiveTail(toks, left.node, left.next)
  }

  /** The loop of `parse_additive_expr`, with the operand built so far in `left`. */
  function ParseAdditiveTail(toks: seq<Token>, left: Expr, pos: nat): (r: Result<Parsed<Expr>, ParseError>)
    requires Parsable(toks) && pos < |toks|
    ensures r.Ok? ==> pos <= r.value.next < |toks| && ConsumedOnly(toks, pos, r.value.next)
    decreases |toks| - pos, 2
  {
    if IsAdditiveText(toks[pos].text) then
      var right :- ParseMultiplicative(toks, pos + 1);
      ParseAdditiveTail(toks, BinaryExpr(left, right.node, toks[pos].text.value), right.next)
    else
      Ok(Parsed(left, pos))
  }

  /** `parse_multiplicative_expr`: `primary (("*"|"/") primary)*`. */
  function ParseMultiplicative(toks: seq<Token>, pos: nat): (r: Result<Parsed<Expr>, ParseError>)
    requires Parsable(toks) && pos < |toks|
    ensures Advanced(toks, pos, r)
    ensures r.Ok? ==> StartsPrimary(toks[pos])
    decreases |toks| - pos, 1
  {
    var left :- ParsePrimary(toks, pos);
    ParseMultiplicativeTail(toks, left.node, left.next)
  }

  /** The loop of `parse_multiplicative_expr`, with the operand built so far in `left`. */
  function ParseMultiplicativeTail(toks: seq<Token>, left: Expr, pos: nat): (r: Result<Parsed<Expr>, ParseError>)
    requires Parsable(toks) && pos < |toks|
    ensures r.Ok? ==> pos <= r.value.next < |toks| && ConsumedOnly(toks, pos, r.value.next)
    decreases |toks| - pos, 1
  {
    if IsMultiplicativeText(toks[pos].text) then
      var right :- ParsePrimary(toks, pos + 1);
      ParseMultiplicativeTail(toks, BinaryExpr(left, right.node, toks[pos].text.value), right.next)
    else
      Ok(Parsed(left, pos))
  }

  /** `parse_primary_expr`: an identifier, a number, a string or a parenthesised expression. */
  function ParsePrimary(toks: seq<Token>, pos: nat): (r: Result<Parsed<Expr>, ParseError>)
    requires Parsable(toks) && pos < |toks|
    ensures Advanced(toks, pos, r)
    ensures r.Ok? ==> StartsPrimary(toks[pos])
    ensures StartsPrimary(toks[pos]) && toks[pos].kind != OpenParen ==> r.Ok? && r.value.next == pos + 1
    ensures toks[pos].kind == Eof ==> r == Err(UnexpectedEndOfInput)
    ensures (toks[pos].kind == OpenParen && ParseExpr(toks, pos + 1).Ok? &&
             toks[ParseExpr(toks, pos + 1).value.next].kind != CloseParen) ==> r == Err(ExpectedCloseParen)
    decreases |toks| - pos, 0
  {
    var t := toks[pos];
    match t.kind
    case Identifier => Ok(Parsed(Ast.Identifier(t.text.value), pos + 1))
    case Number => Ok(Parsed(NumericLiteral(DigitsValue(t.text.value)), pos + 1))
    case String => Ok(Parsed(StringLiteral(t.text.value), pos + 1))
    case OpenParen =>
      var inner :- ParseExpr(toks, pos + 1);
      if toks[inner.next].kind == CloseParen then Ok(Parsed(inner.node, inner.next + 1))
      else Err(ExpectedCloseParen)
    case _ =>
      if t.text.None? then Err(UnexpectedEndOfInput) else Err(UnexpectedToken(t.kind))
  }

  /** `parse_var_decl_stmt`, entered on a `let` or `const` token. */
  function ParseVarDecl(toks: seq<Token>, pos: nat): (r: Result<Parsed<Stmt>, ParseError>)
    requires Parsable(toks) && pos < |toks|
    requires toks[pos].kind == Let || toks[pos].kind == Const
    ensures Advanced(toks, pos, r)
    ensures toks[pos + 1].kind != Lexer.Identifier ==> r == Err(ExpectedIdentifier)
    ensures r.Ok? ==> r.value.node.VariableDeclarationStmt?
    ensures r.Ok? ==> toks[pos + 1].text == Some(r.value.node.ident)
    ensures r.Ok? ==> (r.value.node.init.None? <==> toks[pos + 2].kind != Equals)
    ensures r.Ok? && r.value.node.init.None? ==> !r.value.node.isConst && r.value.next == pos + 2
    ensures r.Ok? && r.value.node.init.Some? ==> r.value.node.isConst == (toks[pos].kind == Const)
    ensures toks[pos].kind == Const && toks[pos + 1].kind == Lexer.Identifier && toks[pos + 2].kind != Equals
            ==> r == Err(ConstWithoutValue)
  {
    var isConst := toks[pos].kind == Const;
    var ident := toks[pos + 1];
    if ident.kind != Lexer.Identifier then Err(ExpectedIdentifier)
    else if toks[pos + 2].kind != Equals then
      if isConst then Err(ConstWithoutValue)
      else Ok(Parsed(VariableDeclarationStmt(ident.text.value, None, false), pos + 2))
    else
      var value :- ParseExpr(toks, pos + 3);
      Ok(Parsed(VariableDeclarationStmt(ident.text.value, Some(value.node), isConst), value.next))
  }

  /** `parse_stmt`: a declaration when the first token is `let`/`const`, otherwise an expression. */
  function ParseStmt(toks: seq<Token>, pos: nat): (r: Result<Parsed<Stmt>, ParseError>)
    requires Parsable(toks) && pos < |toks|
    ensures Advanced(toks, pos, r)
    ensures r.Ok? ==> toks[pos].kind == Let || toks[pos].kind == Const || StartsPrimary(toks[pos])
    ensures r.Ok? && r.value.node.ExprStmt? ==> toks[pos].kind != Let && toks[pos].kind != Const
  {
    if toks[pos].kind == Let || toks[pos].kind == Const then
      ParseVarDecl(toks, pos)
    else
      var e :- ParseExpr(toks, pos);
      Ok(Parsed(ExprStmt(e.node), e.next))
  }

  /** The position of the first non-`;` token at or after `pos`. */
  function SkipSemicolons(toks: seq<Token>, pos: nat): (q: nat)
    requires Parsable(toks) && pos < |toks|
    ensures pos <= q < |toks| && toks[q].kind != SemiColon
    ensures forall k :: pos <= k < q ==> toks[k].kind == SemiColon
    decreases |toks| - pos
  {
    if toks[pos].kind == SemiColon then SkipSemicolons(toks, pos + 1) else pos
  }

  /** The position of the first end-of-file token at or after `pos`. */
  function FirstEof(toks: seq<Token>, pos: nat): (q: nat)
    requires Parsable(toks) && pos < |toks|
    ensures pos <= q < |toks| && toks[q].kind == Eof
    ensures forall k :: pos <= k < q ==> toks[k].kind != Eof
    decreases |toks| - pos
  {
    if toks[pos].kind == Eof then pos else FirstEof(toks, pos + 1)
  }

  lemma {:induction false} FirstEofSkip(toks: seq<Token>, pos: nat, q: nat)
    requires Parsable(toks) && pos <= q < |toks|
    requires forall k :: pos <= k < q ==> toks[k].kind != Eof
    ensures FirstEof(toks, pos) == FirstEof(toks, q)
    decreases q - pos
  {
    if pos < q {
      FirstEofSkip(toks, pos + 1, q);
    }
  }

  /** The loop of `parse_program`: statements until end-of-file, each followed by any run of `;`. */
  function ParseStatements(toks: seq<Token>, pos: nat, acc: Program): (r: Result<Program, ParseError>)
    requires Parsable(toks) && pos < |toks|
    ensures r.Ok? ==> |acc| <= |r.value| && r.value[..|acc|] == acc
    ensures r.Ok? ==> ConsumedOnly(toks, pos, FirstEof(toks, pos))
    decreases |toks| - pos
  {
    if toks[pos].kind == Eof then Ok(acc)
    else
      var stmt :- ParseStmt(toks, pos);
      var q := SkipSemicolons(toks, stmt.next);
      FirstEofSkip(toks, pos, q);
      ParseStatements(toks, q, ProgramAppend(acc, stmt.node))
  }

  /**
    `parse_program`. On success every token before the first end-of-file
    token was consumed by some rule; a `;` in first position is an error,
    since separators are only skipped after a statement.
   */
  function ParseProgram(toks: seq<Token>): (r: Result<Program, ParseError>)
    requires Parsable(toks)
    ensures r.Ok? ==> ConsumedOnly(toks, 0, FirstEof(toks, 0))
    ensures toks[0].kind == SemiColon ==> r.Err?
  {
    ParseStatements(toks, 0, EmptyProgram)
  }
}

=== FILE: parser_props.dfy ===
/**
  Properties of the parser: the binding strength and associativity of the
  operators, the rejection of operators the grammar does not know, and a
  round trip that parses every well-formed program back from a fully
  parenthesised token sequence.
 */
module ParserProps {
  import opened Results
  import opened Lexer
  import opened Ast
  import opened Parser

  /** `part` occurs in `toks` starting at position `pos`. */
  predicate Occurs(toks: seq<Token>, pos: nat, part: seq<Token>)
    decreases |part|
  {
    && pos + |part| <= |toks|
    && (|part| == 0 || (toks[pos] == part[0] && Occurs(toks, pos + 1, part[1..])))
  }

  /** An occurrence of `a + b` is an occurrence of `a` followed by one of `b`. */
  lemma {:induction false} OccursConcat(toks: seq<Token>, pos: nat, a: seq<Token>, b: seq<Token>)
    ensures Occurs(toks, pos, a + b) <==> Occurs(toks, pos, a) && Occurs(toks, pos + |a|, b)
    decreases |a|
  {
    if |a| == 0 {
      assert a + b == b;
    } else {
      assert (a + b)[0] == a[0];
      assert (a + b)[1..] == a[1..] + b;
      OccursConcat(toks, pos + 1, a[1..], b);
    }
  }

  lemma {:induction false} OccursIndex(toks: seq<Token>, pos: nat, whole: seq<Token>, i: nat)
    requires Occurs(toks, pos, whole) && i < |whole|
    ensures toks[pos + i] == whole[i]
    decreases i
  {
    if i > 0 {
      OccursIndex(toks, pos + 1, whole[1..], i - 1);
    }
  }

  lemma OccursSingle(toks: seq<Token>, pos: nat, t: Token)
    requires Occurs(toks, pos, [t])
    ensures pos < |toks| && toks[pos] == t
  {
  }

  /** A sequence occurs at its own start. */
  lemma {:induction false} OccursPrefix(toks: seq<Token>, part: seq<Token>, pos: nat)
    requires pos + |part| <= |toks| && forall k :: 0 <= k < |part| ==> toks[pos + k] == part[k]
    ensures Occurs(toks, pos, part)
    decreases |part|
  {
    if |part| > 0 {
      assert toks[pos + 0] == part[0];
      forall k | 0 <= k < |part| - 1
        ensures toks[pos + 1 + k] == part[1..][k]
      {
        assert toks[pos + (k + 1)] == part[k + 1];
      }
      OccursPrefix(toks, part[1..], pos + 1);
    }
  }

  /* ---------------- Token spellings of syntax trees ---------------- */

  function DigitChar(d: nat): (c: char)
    requires d < 10
    ensures IsNum(c) && DigitValue(c) == d
  {
    (('0' as int) + d) as char
  }

  /** The decimal digits of `n`, without leading zeros. */
  function NatToDigits(n: nat): (w: string)
    ensures |w| > 0 && IsDigits(w)
    decreases n
  {
    if n < 10 then [DigitChar(n)] else NatToDigits(n / 10) + [DigitChar(n % 10)]
  }

  /** `atoi` reads back the number the digits were written from. */
  lemma {:induction false} DigitsRoundTrip(n: nat)
    ensures DigitsValue(NatToDigits(n)) == n
    decreases n
  {
    var w := NatToDigits(n);
    if n >= 10 {
      DigitsRoundTrip(n / 10);
      assert w[..|w| - 1] == NatToDigits(n / 10);
    }
  }

  /** The tokens the printer below emits: lexable, and readable by the parser. */
  predicate GoodToken(t: Token) {
    WellFormedToken(t) && Fits(t)
  }

  predicate AllGood(ts: seq<Token>) {
    forall k :: 0 <= k < |ts| ==> GoodToken(ts[k])
  }

  lemma AllGoodConcat(a: seq<Token>, b: seq<Token>)
    requires AllGood(a) && AllGood(b)
    ensures AllGood(a + b)
  {
    forall k | 0 <= k < |a + b|
      ensures GoodToken((a + b)[k])
    {
      if k < |a| {
        assert (a + b)[k] == a[k];
      } else {
        assert (a + b)[k] == b[k - |a|];
      }
    }
  }

  const OpenToken: Token := Token(OpenParen, Some("("))
  const CloseToken: Token := Token(CloseParen, Some(")"))
  const EqualsToken: Token := Token(Equals, Some("="))
  const SemiToken: Token := Token(SemiColon, Some(";"))

  function NumberToken(n: nat): Token {
    Token(Number, Some(NatToDigits(n)))
  }

  function IdentToken(x: string): Token {
    Token(Lexer.Identifier, Some(x))
  }

  /** An identifier the lexer produces: a word that is not a keyword. */
  predicate IsName(x: string) {
    IsWord(x) && x != "let" && x != "const"
  }

  /** Expressions the parser can produce (its outputs carry one of the four operator texts). */
  predicate WellFormedExpr(e: Expr) {
    match e
    case NumericLiteral(n) => 0 <= n <= IntMax
    case StringLiteral(s) => NoNul(s) && forall k :: 0 <= k < |s| ==> s[k] != '"'
    case Identifier(x) => IsName(x)
    case BinaryExpr(l, r, op) => WellFormedExpr(l) && WellFormedExpr(r) && IsArithmeticText(op)
    case AssignmentExpr(t, v) => WellFormedExpr(t) && WellFormedExpr(v)
  }

  predicate IsArithmeticText(op: string) {
    op == "+" || op == "-" || op == "*" || op == "/"
  }

  /**
    An expression written as tokens with every operator node in its own
    pair of parentheses; the result is never empty and starts an operand.
   */
  function ExprTokens(e: Expr): (ts: seq<Token>)
    requires WellFormedExpr(e)
    ensures |ts| > 0 && StartsPrimary(ts[0])
    ensures ts[0].kind != OpenParen ==> |ts| == 1
  {
    match e
    case NumericLiteral(n) => [NumberToken(n)]
    case StringLiteral(s) => [Token(String, Some(s))]
    case Identifier(x) => [IdentToken(x)]
    case BinaryExpr(l, r, op) =>
      [OpenToken] + ExprTokens(l) + [Token(BinaryOperator, Some(op))] + ExprTokens(r) + [CloseToken]
    case AssignmentExpr(t, v) =>
      [OpenToken] + ExprTokens(t) + [EqualsToken] + ExprTokens(v) + [CloseToken]
  }

  /** Every token of a printed expression is one the lexer emits and the parser accepts. */
  lemma {:induction false} ExprTokensGood(e: Expr)
    requires WellFormedExpr(e)
    ensures AllGood(ExprTokens(e))
  {
    match e
    case NumericLiteral(n) =>
      DigitsRoundTrip(n);
    case StringLiteral(_) =>
    case Identifier(_) =>
    case BinaryExpr(l, r, op) =>
      ExprTokensGood(l);
      ExprTokensGood(r);
      assert GoodToken(Token(BinaryOperator, Some(op)));
      ParenTokensGood(ExprTokens(l), Token(BinaryOperator, Some(op)), ExprTokens(r));
    case AssignmentExpr(t, v) =>
      ExprTokensGood(t);
      ExprTokensGood(v);
      ParenTokensGood(ExprTokens(t), EqualsToken, ExprTokens(v));
  }

  /** A parenthesised node of good tokens is made of good tokens. */
  lemma ParenTokensGood(L: seq<Token>, mark: Token, R: seq<Token>)
    requires AllGood(L) && GoodToken(mark) && AllGood(R)
    ensures AllGood([OpenToken] + L + [mark] + R + [CloseToken])
  {
    AllGoodConcat([OpenToken], L);
    AllGoodConcat([OpenToken] + L, [mark]);
    AllGoodConcat([OpenToken] + L + [mark], R);
    AllGoodConcat([OpenToken] + L + [mark] + R, [CloseToken]);
  }

  /** Statements the parser can produce: only `let` may lack an initializer. */
  predicate WellFormedStmt(s: Stmt) {
    match s
    case ExprStmt(e) => WellFormedExpr(e)
    case VariableDeclarationStmt(x, init, isConst) =>
      && IsName(x)
      && (init.None? ==> !isConst)
      && (init.Some? ==> WellFormedExpr(init.value))
  }

  predicate WellFormedProgram(p: Program) {
    forall k :: 0 <= k < |p| ==> WellFormedStmt(p[k])
  }

  function Keyword(isConst: bool): Token {
    if isConst then Token(Const, Some("const")) else Token(Let, Some("let"))
  }

  function StmtTokens(s: Stmt): (ts: seq<Token>)
    requires WellFormedStmt(s)
    ensures |ts| > 0 && ts[0].kind != SemiColon && ts[0].kind != Eof
  {
    match s
    case ExprStmt(e) => ExprTokens(e)
    case VariableDeclarationStmt(x, init, isConst) =>
      if init.None? then [Keyword(isConst), IdentToken(x)]
      else [Keyword(isConst), IdentToken(x), EqualsToken] + ExprTokens(init.value)
  }

  lemma StmtTokensGood(s: Stmt)
    requires WellFormedStmt(s)
    ensures AllGood(StmtTokens(s))
  {
    match s
    case ExprStmt(e) => ExprTokensGood(e);
    case VariableDeclarationStmt(x, init, isConst) =>
      if init.Some? {
        ExprTokensGood(init.value);
        AllGoodConcat([Keyword(isConst), IdentToken(x), EqualsToken], ExprTokens(init.value));
      }
  }

  /** A program written as tokens, every statement followed by `;`. */
  function ProgramTokens(p: Program): (ts: seq<Token>)
    requires WellFormedProgram(p)
    ensures |ts| > 0 ==> ts[0].kind != SemiColon && ts[0].kind != Eof
  {
    if |p| == 0 then []
    else StmtTokens(p[0]) + [SemiToken] + ProgramTokens(p[1..])
  }

  lemma {:induction false} ProgramTokensGood(p: Program)
    requires WellFormedProgram(p)
    ensures AllGood(ProgramTokens(p))
    decreases |p|
  {
    if |p| > 0 {
      StmtTokensGood(p[0]);
      ProgramTokensGood(p[1..]);
      AllGoodConcat(StmtTokens(p[0]), [SemiToken]);
      AllGoodConcat(StmtTokens(p[0]) + [SemiToken], ProgramTokens(p[1..]));
    }
  }

  lemma GoodParsable(ts: seq<Token>)
    requires AllGood(ts)
    ensures Parsable(ts + [EofToken])
  {
    var toks := ts + [EofToken];
    forall k | 0 <= k < |toks|
      ensures Fits(toks[k])
    {
      if k < |ts| {
        assert toks[k] == ts[k];
      }
    }
  }

  /* ---------------- One grammar rule at a time ---------------- */

  /** A token that ends an operand: no operator text of either level, and not `=`. */
  predicate Stops(t: Token) {
    !IsAdditiveText(t.text) && !IsMultiplicativeText(t.text) && t.kind != Equals
  }

  lemma MultiplicativeOfPrimary(toks: seq<Token>, pos: nat, e: Expr, next: nat)
    requires Parsable(toks) && pos < next < |toks|
    requires ParsePrimary(toks, pos) == Ok(Parsed(e, next))
    requires !IsMultiplicativeText(toks[next].text)
    ensures ParseMultiplicative(toks, pos) == Ok(Parsed(e, next))
  {
  }

  lemma MultiplicativeOfProduct(toks: seq<Token>, pos: nat, l: Expr, mid: nat, r: Expr, next: nat)
    requires Parsable(toks) && pos < mid && mid + 1 < next < |toks|
    requires ParsePrimary(toks, pos) == Ok(Parsed(l, mid))
    requires IsMultiplicativeText(toks[mid].text)
    requires ParsePrimary(toks, mid + 1) == Ok(Parsed(r, next))
    requires !IsMultiplicativeText(toks[next].text)
    ensures ParseMultiplicative(toks, pos) == Ok(Parsed(BinaryExpr(l, r, toks[mid].text.value), next))
  {
    var e := BinaryExpr(l, r, toks[mid].text.value);
    assert ParseMultiplicativeTail(toks, e, next) == Ok(Parsed(e, next));
  }

  lemma AdditiveOfTerm(toks: seq<Token>, pos: nat, e: Expr, next: nat)
    requires Parsable(toks) && pos < next < |toks|
    requires ParseMultiplicative(toks, pos) == Ok(Parsed(e, next))
    requires !IsAdditiveText(toks[next].text)
    ensures ParseAdditive(toks, pos) == Ok(Parsed(e, next))
  {
  }

  lemma AdditiveOfSum(toks: seq<Token>, pos: nat, l: Expr, mid: nat, r: Expr, next: nat)
    requires Parsable(toks) && pos < mid && mid + 1 < next < |toks|
    requires ParseMultiplicative(toks, pos) == Ok(Parsed(l, mid))
    requires IsAdditiveText(toks[mid].text)
    requires ParseMultiplicative(toks, mid + 1) == Ok(Parsed(r, next))
    requires !IsAdditiveText(toks[next].text)
    ensures ParseAdditive(toks, pos) == Ok(Parsed(BinaryExpr(l, r, toks[mid].text.value), next))
  {
    var e := BinaryExpr(l, r, toks[mid].text.value);
    assert ParseAdditiveTail(toks, e, next) == Ok(Parsed(e, next));
  }

  lemma ExprOfAdditive(toks: seq<Token>, pos: nat, e: Expr, next: nat)
    requires Parsable(toks) && pos < next < |toks|
    requires ParseAdditive(toks, pos) == Ok(Parsed(e, next))
    requires toks[next].kind != Equals
    ensures ParseExpr(toks, pos) == Ok(Parsed(e, next))
  {
  }

  lemma ExprOfAssignment(toks: seq<Token>, pos: nat, t: Expr, mid: nat, v: Expr, next: nat)
    requires Parsable(toks) && pos < mid && mid + 1 < next < |toks|
    requires ParseAdditive(toks, pos) == Ok(Parsed(t, mid))
    requires toks[mid].kind == Equals
    requires ParseExpr(toks, mid + 1) == Ok(Parsed(v, next))
    ensures ParseExpr(toks, pos) == Ok(Parsed(AssignmentExpr(t, v), next))
  {
  }

  /** An operand followed by a token that ends it is a whole expression. */
  lemma ExprOfPrimary(toks: seq<Token>, pos: nat, e: Expr, next: nat)
    requires Parsable(toks) && pos < next < |toks|
    requires ParsePrimary(toks, pos) == Ok(Parsed(e, next))
    requires Stops(toks[next])
    ensures ParseExpr(toks, pos) == Ok(Parsed(e, next))
  {
    MultiplicativeOfPrimary(toks, pos, e, next);
    AdditiveOfTerm(toks, pos, e, next);
    ExprOfAdditive(toks, pos, e, next);
  }

  /* ---------------- Round trip ---------------- */

  /** An opening parenthesis at `pos`, an inner mark at `mid` and the closing one at `next`. */
  ghost predicate Bracketed(toks: seq<Token>, pos: nat, mid: nat, next: nat) {
    && Parsable(toks) && pos + 1 < mid && mid + 1 < next < |toks|
    && toks[pos].kind == OpenParen && toks[next] == CloseToken
  }

  /** `( l op r )` is one operand when `l` and `r` are. */
  lemma PrimaryOfParenBinary(toks: seq<Token>, pos: nat, l: Expr, mid: nat, r: Expr, next: nat, op: string)
    requires Bracketed(toks, pos, mid, next)
    requires ParsePrimary(toks, pos + 1) == Ok(Parsed(l, mid))
    requires toks[mid].text == Some(op) && IsArithmeticText(op)
    requires ParsePrimary(toks, mid + 1) == Ok(Parsed(r, next))
    ensures ParsePrimary(toks, pos) == Ok(Parsed(BinaryExpr(l, r, op), next + 1))
  {
    AdditiveOfOperands(toks, pos + 1, l, mid, r, next, op);
    ExprOfAdditive(toks, pos + 1, BinaryExpr(l, r, op), next);
    PrimaryOfParen(toks, pos, BinaryExpr(l, r, op), next);
  }

  /** An expression between `(` and `)` is one operand. */
  lemma PrimaryOfParen(toks: seq<Token>, pos: nat, e: Expr, next: nat)
    requires Parsable(toks) && pos < next < |toks|
    requires toks[pos].kind == OpenParen && toks[next] == CloseToken
    requires ParseExpr(toks, pos + 1) == Ok(Parsed(e, next))
    ensures ParsePrimary(toks, pos) == Ok(Parsed(e, next + 1))
  {
  }

  /** Two operands joined by any of the four operators, followed by `)`, form one sum. */
  lemma AdditiveOfOperands(toks: seq<Token>, pos: nat, l: Expr, mid: nat, r: Expr, next: nat, op: string)
    requires Parsable(toks) && pos < mid && mid + 1 < next < |toks| && toks[next] == CloseToken
    requires ParsePrimary(toks, pos) == Ok(Parsed(l, mid))
    requires toks[mid].text == Some(op) && IsArithmeticText(op)
    requires ParsePrimary(toks, mid + 1) == Ok(Parsed(r, next))
    ensures ParseAdditive(toks, pos) == Ok(Parsed(BinaryExpr(l, r, op), next))
  {
    if IsMultiplicativeText(toks[mid].text) {
      MultiplicativeOfProduct(toks, pos, l, mid, r, next);
      AdditiveOfTerm(toks, pos, BinaryExpr(l, r, op), next);
    } else {
      MultiplicativeOfPrimary(toks, pos, l, mid);
      MultiplicativeOfPrimary(toks, mid + 1, r, next);
      AdditiveOfSum(toks, pos, l, mid, r, next);
    }
  }

  /** `( t = v )` is one operand when `t` and `v` are. */
  lemma PrimaryOfParenAssignment(toks: seq<Token>, pos: nat, t: Expr, mid: nat, v: Expr, next: nat)
    requires Bracketed(toks, pos, mid, next)
    requires ParsePrimary(toks, pos + 1) == Ok(Parsed(t, mid))
    requires toks[mid] == EqualsToken
    requires ParsePrimary(toks, mid + 1) == Ok(Parsed(v, next))
    ensures ParsePrimary(toks, pos) == Ok(Parsed(AssignmentExpr(t, v), next + 1))
  {
    MultiplicativeOfPrimary(toks, pos + 1, t, mid);
    AdditiveOfTerm(toks, pos + 1, t, mid);
    ExprOfPrimary(toks, mid + 1, v, next);
    ExprOfAssignment(toks, pos + 1, t, mid, v, next);
    PrimaryOfParen(toks, pos, AssignmentExpr(t, v), next);
  }

  /** Where the three parts of a parenthesised node's tokens sit. */
  lemma ParenLayout(toks: seq<Token>, pos: nat, L: seq<Token>, mark: Token, R: seq<Token>)
    requires Occurs(toks, pos, [OpenToken] + L + [mark] + R + [CloseToken])
    ensures toks[pos] == OpenToken
    ensures Occurs(toks, pos + 1, L)
    ensures toks[pos + 1 + |L|] == mark
    ensures Occurs(toks, pos + 2 + |L|, R)
    ensures toks[pos + 2 + |L| + |R|] == CloseToken
  {
    var a := [OpenToken] + L;
    var b := a + [mark];
    var c := b + R;
    OccursConcat(toks, pos, c, [CloseToken]);
    OccursConcat(toks, pos, b, R);
    OccursConcat(toks, pos, a, [mark]);
    OccursConcat(toks, pos, [OpenToken], L);
    OccursSingle(toks, pos, OpenToken);
    OccursSingle(toks, pos + |a|, mark);
    OccursSingle(toks, pos + |c|, CloseToken);
  }

  /** The tokens of `e` sit at `pos`, and the input goes on after them. */
  ghost predicate ExprAt(toks: seq<Token>, pos: nat, e: Expr) {
    && Parsable(toks) && WellFormedExpr(e)
    && Occurs(toks, pos, ExprTokens(e)) && pos + |ExprTokens(e)| < |toks|
  }

  /**
    Every well-formed expression is read back as one operand from its fully
    parenthesised tokens, wherever they occur in a parsable sequence.
   */
  lemma {:induction false} ParsePrimaryTokens(toks: seq<Token>, pos: nat, e: Expr)
    requires ExprAt(toks, pos, e)
    ensures ParsePrimary(toks, pos) == Ok(Parsed(e, pos + |ExprTokens(e)|))
    decreases e, 2
  {
    match e
    case BinaryExpr(l, r, op) => ParseBinaryTokens(toks, pos, l, r, op);
    case AssignmentExpr(t, v) => ParseAssignmentTokens(toks, pos, t, v);
    case _ => ParseAtomTokens(toks, pos, e);
  }

  /** `ParsePrimaryTokens` with the position after the expression named. */
  lemma {:induction false} ParsePrimaryUpTo(toks: seq<Token>, pos: nat, e: Expr, next: nat)
    requires ExprAt(toks, pos, e) && next == pos + |ExprTokens(e)|
    ensures ParsePrimary(toks, pos) == Ok(Parsed(e, next))
    decreases e, 3
  {
    ParsePrimaryTokens(toks, pos, e);
  }

  lemma ParseAtomTokens(toks: seq<Token>, pos: nat, e: Expr)
    requires ExprAt(toks, pos, e) && !e.BinaryExpr? && !e.AssignmentExpr?
    ensures ParsePrimary(toks, pos) == Ok(Parsed(e, pos + |ExprTokens(e)|))
  {
    OccursIndex(toks, pos, ExprTokens(e), 0);
    if e.NumericLiteral? {
      DigitsRoundTrip(e.x);
    }
  }

  /** Where the operands of a binary node's tokens sit. */
  lemma BinaryLayout(toks: seq<Token>, pos: nat, l: Expr, r: Expr, op: string) returns (mid: nat, next: nat)
    requires ExprAt(toks, pos, BinaryExpr(l, r, op))
    ensures ExprAt(toks, pos + 1, l) && mid == pos + 1 + |ExprTokens(l)|
    ensures ExprAt(toks, mid + 1, r) && next == mid + 1 + |ExprTokens(r)|
    ensures next + 1 == pos + |ExprTokens(BinaryExpr(l, r, op))|
    ensures Bracketed(toks, pos, mid, next) && toks[mid].text == Some(op) && IsArithmeticText(op)
  {
    mid := pos + 1 + |ExprTokens(l)|;
    next := mid + 1 + |ExprTokens(r)|;
    ParenLayout(toks, pos, ExprTokens(l), Token(BinaryOperator, Some(op)), ExprTokens(r));
  }

  /** Where the target and value of an assignment node's tokens sit. */
  lemma AssignmentLayout(toks: seq<Token>, pos: nat, t: Expr, v: Expr) returns (mid: nat, next: nat)
    requires ExprAt(toks, pos, AssignmentExpr(t, v))
    ensures ExprAt(toks, pos + 1, t) && mid == pos + 1 + |ExprTokens(t)|
    ensures ExprAt(toks, mid + 1, v) && next == mid + 1 + |ExprTokens(v)|
    ensures next + 1 == pos + |ExprTokens(AssignmentExpr(t, v))|
    ensures Bracketed(toks, pos, mid, next) && toks[mid] == EqualsToken
  {
    mid := pos + 1 + |ExprTokens(t)|;
    next := mid + 1 + |ExprTokens(v)|;
    ParenLayout(toks, pos, ExprTokens(t), EqualsToken, ExprTokens(v));
  }

  lemma {:induction false} ParseBinaryTokens(toks: seq<Token>, pos: nat, l: Expr, r: Expr, op: string)
    requires ExprAt(toks, pos, BinaryExpr(l, r, op))
    ensures ParsePrimary(toks, pos) == Ok(Parsed(BinaryExpr(l, r, op), pos + |ExprTokens(BinaryExpr(l, r, op))|))
    decreases BinaryExpr(l, r, op), 1
  {
    var mid, next := BinaryLayout(toks, pos, l, r, op);
    BinaryParses(toks, pos, l, mid, r, next, op);
  }

  /** A laid-out binary node whose operands are laid out is read back as one operand. */
  lemma {:induction false} BinaryParses(toks: seq<Token>, pos: nat, l: Expr, mid: nat, r: Expr, next: nat, op: string)
    requires ExprAt(toks, pos + 1, l) && mid == pos + 1 + |ExprTokens(l)|
    requires ExprAt(toks, mid + 1, r) && next == mid + 1 + |ExprTokens(r)|
    requires Bracketed(toks, pos, mid, next) && toks[mid].text == Some(op) && IsArithmeticText(op)
    ensures ParsePrimary(toks, pos) == Ok(Parsed(BinaryExpr(l, r, op), next + 1))
    decreases BinaryExpr(l, r, op), 0
  {
    ParsePrimaryUpTo(toks, pos + 1, l, mid);
    ParsePrimaryUpTo(toks, mid + 1, r, next);
    PrimaryOfParenBinary(toks, pos, l, mid, r, next, op);
  }

  lemma {:induction false} ParseAssignmentTokens(toks: seq<Token>, pos: nat, t: Expr, v: Expr)
    requires ExprAt(toks, pos, AssignmentExpr(t, v))
    ensures ParsePrimary(toks, pos) == Ok(Parsed(AssignmentExpr(t, v), pos + |ExprTokens(AssignmentExpr(t, v))|))
    decreases AssignmentExpr(t, v), 1
  {
    var mid, next := AssignmentLayout(toks, pos, t, v);
    AssignmentParses(toks, pos, t, mid, v, next);
  }

  /** A laid-out assignment node whose sides are laid out is read back as one operand. */
  lemma {:induction false} AssignmentParses(toks: seq<Token>, pos: nat, t: Expr, mid: nat, v: Expr, next: nat)
    requires ExprAt(toks, pos + 1, t) && mid == pos + 1 + |ExprTokens(t)|
    requires ExprAt(toks, mid + 1, v) && next == mid + 1 + |ExprTokens(v)|
    requires Bracketed(toks, pos, mid, next) && toks[mid] == EqualsToken
    ensures ParsePrimary(toks, pos) == Ok(Parsed(AssignmentExpr(t, v), next + 1))
    decreases AssignmentExpr(t, v), 0
  {
    ParsePrimaryUpTo(toks, pos + 1, t, mid);
    ParsePrimaryUpTo(toks, mid + 1, v, next);
    PrimaryOfParenAssignment(toks, pos, t, mid, v, next);
  }

  /** The tokens of `s` sit at `pos`, followed by a `;`. */
  ghost predicate StmtAt(toks: seq<Token>, pos: nat, s: Stmt) {
    && Parsable(toks) && WellFormedStmt(s)
    && Occurs(toks, pos, StmtTokens(s)) && pos + |StmtTokens(s)| < |toks|
    && toks[pos + |StmtTokens(s)|] == SemiToken
  }

  /** A statement is read back from its tokens when a `;` follows them. */
  lemma ParseStmtTokens(toks: seq<Token>, pos: nat, s: Stmt)
    requires Parsable(toks) && WellFormedStmt(s)
    requires Occurs(toks, pos, StmtTokens(s)) && pos + |StmtTokens(s)| < |toks|
    requires toks[pos + |StmtTokens(s)|] == SemiToken
    ensures ParseStmt(toks, pos) == Ok(Parsed(s, pos + |StmtTokens(s)|))
  {
    assert StmtAt(toks, pos, s);
    if s.ExprStmt? {
      ParseExprStmtTokens(toks, pos, s.e);
    } else if s.init.Some? {
      ParseInitializedTokens(toks, pos, s);
    } else {
      ParseUninitializedTokens(toks, pos, s);
    }
  }

  /** Where the expression of a laid-out expression statement sits, and where its `;` is. */
  lemma ExprStmtLayout(toks: seq<Token>, pos: nat, e: Expr) returns (next: nat)
    requires StmtAt(toks, pos, ExprStmt(e))
    ensures next == pos + |StmtTokens(ExprStmt(e))| == pos + |ExprTokens(e)|
    ensures ExprAt(toks, pos, e) && toks[next] == SemiToken
  {
    next := pos + |ExprTokens(e)|;
  }

  lemma ParseExprStmtTokens(toks: seq<Token>, pos: nat, e: Expr)
    requires StmtAt(toks, pos, ExprStmt(e))
    ensures ParseStmt(toks, pos) == Ok(Parsed(ExprStmt(e), pos + |StmtTokens(ExprStmt(e))|))
  {
    var next := ExprStmtLayout(toks, pos, e);
    ExprStmtParses(toks, pos, e, next);
  }

  /** An expression laid out up to a `;` at `next` is read back as an expression statement. */
  lemma ExprStmtParses(toks: seq<Token>, pos: nat, e: Expr, next: nat)
    requires ExprAt(toks, pos, e) && next == pos + |ExprTokens(e)| && toks[next] == SemiToken
    ensures ParseStmt(toks, pos) == Ok(Parsed(ExprStmt(e), next))
  {
    ParsePrimaryUpTo(toks, pos, e, next);
    ExprOfPrimary(toks, pos, e, next);
    StmtOfExpr(toks, pos, e, next);
  }

  /** An expression in statement position is an expression statement. */
  lemma StmtOfExpr(toks: seq<Token>, pos: nat, e: Expr, next: nat)
    requires Parsable(toks) && pos < next < |toks| && StartsPrimary(toks[pos])
    requires ParseExpr(toks, pos) == Ok(Parsed(e, next))
    ensures ParseStmt(toks, pos) == Ok(Parsed(ExprStmt(e), next))
  {
  }

  lemma ParseUninitializedTokens(toks: seq<Token>, pos: nat, s: Stmt)
    requires StmtAt(toks, pos, s) && s.VariableDeclarationStmt? && s.init.None?
    ensures ParseStmt(toks, pos) == Ok(Parsed(s, pos + |StmtTokens(s)|))
  {
    var head := [Keyword(false), IdentToken(s.ident)];
    assert StmtTokens(s) == head;
    OccursIndex(toks, pos, head, 0);
    OccursIndex(toks, pos, head, 1);
  }

  /** The keyword, name and `=` of a declaration at `pos`, and its `;` at `next`. */
  ghost predicate DeclarationAt(toks: seq<Token>, pos: nat, s: Stmt, next: nat) {
    && Parsable(toks) && s.VariableDeclarationStmt? && s.init.Some?
    && pos + 3 < next < |toks| && toks[next] == SemiToken
    && toks[pos] == Keyword(s.isConst) && toks[pos + 1] == IdentToken(s.ident) && toks[pos + 2] == EqualsToken
  }

  /** Where the keyword, name, `=`, initializer and `;` of a laid-out declaration sit. */
  lemma DeclarationLayout(toks: seq<Token>, pos: nat, s: Stmt) returns (next: nat)
    requires StmtAt(toks, pos, s) && s.VariableDeclarationStmt? && s.init.Some?
    ensures next == pos + |StmtTokens(s)| == pos + 3 + |ExprTokens(s.init.value)|
    ensures ExprAt(toks, pos + 3, s.init.value)
    ensures DeclarationAt(toks, pos, s, next)
  {
    var e := s.init.value;
    var head := [Keyword(s.isConst), IdentToken(s.ident), EqualsToken];
    DeclarationTokens(s);
    ThreeThen(toks, pos, head, ExprTokens(e));
    next := pos + |StmtTokens(s)|;
  }

  /** The tokens of an initialized declaration: keyword, name, `=`, then the initializer's. */
  lemma DeclarationTokens(s: Stmt)
    requires WellFormedStmt(s) && s.VariableDeclarationStmt? && s.init.Some?
    ensures WellFormedExpr(s.init.value)
    ensures StmtTokens(s) == [Keyword(s.isConst), IdentToken(s.ident), EqualsToken] + ExprTokens(s.init.value)
  {
  }

  /** An occurrence of three tokens followed by `rest`, taken apart. */
  lemma ThreeThen(toks: seq<Token>, pos: nat, head: seq<Token>, rest: seq<Token>)
    requires |head| == 3 && Occurs(toks, pos, head + rest)
    ensures Occurs(toks, pos + 3, rest)
    ensures toks[pos] == head[0] && toks[pos + 1] == head[1] && toks[pos + 2] == head[2]
  {
    OccursConcat(toks, pos, head, rest);
    OccursIndex(toks, pos, head, 0);
    OccursIndex(toks, pos, head, 1);
    OccursIndex(toks, pos, head, 2);
  }

  lemma ParseInitializedTokens(toks: seq<Token>, pos: nat, s: Stmt)
    requires StmtAt(toks, pos, s) && s.VariableDeclarationStmt? && s.init.Some?
    ensures ParseStmt(toks, pos) == Ok(Parsed(s, pos + |StmtTokens(s)|))
  {
    var next := DeclarationLayout(toks, pos, s);
    DeclarationParses(toks, pos, s, next);
  }

  /** A declaration laid out up to its `;` at `next` is read back up to `next`. */
  lemma DeclarationParses(toks: seq<Token>, pos: nat, s: Stmt, next: nat)
    requires DeclarationAt(toks, pos, s, next) && ExprAt(toks, pos + 3, s.init.value)
    requires next == pos + 3 + |ExprTokens(s.init.value)|
    ensures ParseStmt(toks, pos) == Ok(Parsed(s, next))
  {
    ParsePrimaryUpTo(toks, pos + 3, s.init.value, next);
    StmtOfDeclaration(toks, pos, s, next);
  }

  /** A declaration whose initializer is read back as one operand up to its `;` is read back whole. */
  lemma StmtOfDeclaration(toks: seq<Token>, pos: nat, s: Stmt, next: nat)
    requires DeclarationAt(toks, pos, s, next)
    requires ParsePrimary(toks, pos + 3) == Ok(Parsed(s.init.value, next))
    ensures ParseStmt(toks, pos) == Ok(Parsed(s, next))
  {
    assert Stops(toks[next]);
    ExprOfPrimary(toks, pos + 3, s.init.value, next);
    DeclarationOfExpr(toks, pos, s.isConst, s.ident, s.init.value, next);
  }

  /** `let`/`const` name `=` followed by an expression read up to `next` is a declaration up to `next`. */
  lemma DeclarationOfExpr(toks: seq<Token>, pos: nat, isConst: bool, x: string, e: Expr, next: nat)
    requires Parsable(toks) && pos + 3 < next < |toks|
    requires toks[pos] == Keyword(isConst) && toks[pos + 1] == IdentToken(x) && toks[pos + 2] == EqualsToken
    requires ParseExpr(toks, pos + 3) == Ok(Parsed(e, next))
    ensures ParseStmt(toks, pos) == Ok(Parsed(VariableDeclarationStmt(x, Some(e), isConst), next))
  {
  }

  /** Where a statement, its `;` and the statements after it sit. */
  lemma ProgramLayout(toks: seq<Token>, pos: nat, S: seq<Token>, rest: seq<Token>)
    requires Occurs(toks, pos, S + [SemiToken] + rest)
    ensures Occurs(toks, pos, S)
    ensures toks[pos + |S|] == SemiToken
    ensures Occurs(toks, pos + |S| + 1, rest)
  {
    OccursConcat(toks, pos, S + [SemiToken], rest);
    OccursConcat(toks, pos, S, [SemiToken]);
    OccursSingle(toks, pos + |S|, SemiToken);
  }

  lemma SkipOneSemicolon(toks: seq<Token>, pos: nat)
    requires Parsable(toks) && pos + 1 < |toks|
    requires toks[pos].kind == SemiColon && toks[pos + 1].kind != SemiColon
    ensures SkipSemicolons(toks, pos) == pos + 1
  {
  }

  lemma ParseStatementsStep(toks: seq<Token>, pos: nat, acc: Program, s: Stmt, next: nat, q: nat)
    requires Parsable(toks) && pos < q < |toks|
    requires toks[pos].kind != Eof
    requires ParseStmt(toks, pos) == Ok(Parsed(s, next)) && SkipSemicolons(toks, next) == q
    ensures ParseStatements(toks, pos, acc) == ParseStatements(toks, q, ProgramAppend(acc, s))
  {
  }

  /** The tokens of `p` sit at `pos`, followed by an end-of-file token. */
  ghost predicate LaidOut(toks: seq<Token>, pos: nat, p: Program) {
    && Parsable(toks) && WellFormedProgram(p)
    && Occurs(toks, pos, ProgramTokens(p) + [EofToken])
  }

  /** Where the first statement of a laid-out program and the rest of it sit. */
  lemma HeadLayout(toks: seq<Token>, pos: nat, p: Program) returns (q: nat)
    requires LaidOut(toks, pos, p) && |p| > 0
    ensures WellFormedStmt(p[0])
    ensures Occurs(toks, pos, StmtTokens(p[0])) && q == pos + |StmtTokens(p[0])| + 1 < |toks|
    ensures toks[q - 1] == SemiToken && toks[q].kind != SemiColon
    ensures LaidOut(toks, q, p[1..])
  {
    var S := StmtTokens(p[0]);
    var rest := ProgramTokens(p[1..]) + [EofToken];
    q := pos + |S| + 1;
    ProgramTokensSplit(p);
    ProgramLayout(toks, pos, S, rest);
    OccursIndex(toks, q, rest, 0);
  }

  /** A non-empty program's tokens are its first statement's, a `;`, then the rest's. */
  lemma ProgramTokensSplit(p: Program)
    requires WellFormedProgram(p) && |p| > 0
    ensures WellFormedStmt(p[0]) && WellFormedProgram(p[1..])
    ensures ProgramTokens(p) + [EofToken] == StmtTokens(p[0]) + [SemiToken] + (ProgramTokens(p[1..]) + [EofToken])
    ensures (ProgramTokens(p[1..]) + [EofToken])[0].kind != SemiColon
  {
    WellFormedTail(p);
    var rest := ProgramTokens(p[1..]);
    AppendRegroup(StmtTokens(p[0]) + [SemiToken], rest, [EofToken]);
    assert (rest + [EofToken])[0] == if |rest| > 0 then rest[0] else EofToken;
  }

  /** The statements after the first of a well-formed program are well-formed. */
  lemma WellFormedTail(p: Program)
    requires WellFormedProgram(p) && |p| > 0
    ensures WellFormedStmt(p[0]) && WellFormedProgram(p[1..])
  {
    forall k | 0 <= k < |p[1..]| ensures WellFormedStmt(p[1..][k]) {
      assert p[1..][k] == p[k + 1];
    }
  }

  lemma AppendRegroup(a: seq<Token>, b: seq<Token>, c: seq<Token>)
    ensures a + b + c == a + (b + c)
  {
  }

  /** A statement followed by one `;` is parsed, and parsing goes on after the `;`. */
  lemma HeadParse(toks: seq<Token>, pos: nat, acc: Program, s: Stmt, q: nat)
    requires Parsable(toks) && WellFormedStmt(s)
    requires Occurs(toks, pos, StmtTokens(s)) && q == pos + |StmtTokens(s)| + 1 < |toks|
    requires toks[q - 1] == SemiToken && toks[q].kind != SemiColon
    ensures ParseStatements(toks, pos, acc) == ParseStatements(toks, q, ProgramAppend(acc, s))
  {
    ParseStmtTokens(toks, pos, s);
    SkipOneSemicolon(toks, q - 1);
    StmtStart(toks, pos, s);
    ParseStatementsStep(toks, pos, acc, s, q - 1, q);
  }

  lemma StmtStart(toks: seq<Token>, pos: nat, s: Stmt)
    requires WellFormedStmt(s) && Occurs(toks, pos, StmtTokens(s))
    ensures pos < |toks| && toks[pos].kind != Eof
  {
    OccursIndex(toks, pos, StmtTokens(s), 0);
  }

  lemma ParseStatementsHead(toks: seq<Token>, pos: nat, acc: Program, p: Program) returns (q: nat)
    requires LaidOut(toks, pos, p) && |p| > 0
    ensures LaidOut(toks, q, p[1..])
    ensures ParseStatements(toks, pos, acc) == ParseStatements(toks, q, ProgramAppend(acc, p[0]))
  {
    q := HeadLayout(toks, pos, p);
    HeadParse(toks, pos, acc, p[0], q);
  }

  /** An empty laid-out program is just its end-of-file token. */
  lemma EmptyLaidOut(toks: seq<Token>, pos: nat, p: Program)
    requires LaidOut(toks, pos, p) && |p| == 0
    ensures pos < |toks| && toks[pos].kind == Eof
  {
    OccursIndex(toks, pos, ProgramTokens(p) + [EofToken], 0);
  }

  lemma {:induction false} ParseStatementsTokens(toks: seq<Token>, pos: nat, acc: Program, p: Program)
    requires LaidOut(toks, pos, p)
    ensures ParseStatements(toks, pos, acc) == Ok(acc + p)
    decreases |p|
  {
    if |p| == 0 {
      EmptyLaidOut(toks, pos, p);
      assert acc + p == acc;
    } else {
      var q := ParseStatementsHead(toks, pos, acc, p);
      ParseStatementsTokens(toks, q, ProgramAppend(acc, p[0]), p[1..]);
      AppendHead(acc, p);
    }
  }

  /** Moving a program's first statement onto the accumulator keeps the concatenation. */
  lemma AppendHead(acc: Program, p: Program)
    requires |p| > 0
    ensures ProgramAppend(acc, p[0]) + p[1..] == acc + p
  {
    assert acc + p == acc + [p[0]] + p[1..];
  }

  /**
    Round trip: every well-formed program is what `parse_program` builds from
    its tokens, so the parser loses nothing of the tree it is given.
   */
  lemma ParseProgramTokens(p: Program)
    requires WellFormedProgram(p)
    ensures Parsable(ProgramTokens(p) + [EofToken])
    ensures ParseProgram(ProgramTokens(p) + [EofToken]) == Ok(p)
  {
    var toks := ProgramTokens(p) + [EofToken];
    ProgramTokensGood(p);
    GoodParsable(ProgramTokens(p));
    OccursPrefix(toks, toks, 0);
    ParseStatementsTokens(toks, 0, EmptyProgram, p);
    ProgramOfStatements(toks, p);
  }

  /** `parse_program` returns what the statement loop builds from nothing. */
  lemma ProgramOfStatements(toks: seq<Token>, p: Program)
    requires Parsable(toks) && ParseStatements(toks, 0, EmptyProgram) == Ok(EmptyProgram + p)
    ensures ParseProgram(toks) == Ok(p)
  {
    assert EmptyProgram + p == p;
  }

  /* ---------------- Precedence and associativity ---------------- */

  /** One more `+`/`-` operand extends the sum built so far. */
  lemma AdditiveTailStep(toks: seq<Token>, left: Expr, pos: nat, r: Expr, next: nat)
    requires Parsable(toks) && pos + 1 < next < |toks|
    requires IsAdditiveText(toks[pos].text) && ParseMultiplicative(toks, pos + 1) == Ok(Parsed(r, next))
    ensures ParseAdditiveTail(toks, left, pos) == ParseAdditiveTail(toks, BinaryExpr(left, r, toks[pos].text.value), next)
  {
  }

  lemma AdditiveTailStop(toks: seq<Token>, left: Expr, pos: nat)
    requires Parsable(toks) && pos < |toks| && !IsAdditiveText(toks[pos].text)
    ensures ParseAdditiveTail(toks, left, pos) == Ok(Parsed(left, pos))
  {
  }

  lemma AdditiveStart(toks: seq<Token>, pos: nat, l: Expr, mid: nat)
    requires Parsable(toks) && pos < mid < |toks|
    requires ParseMultiplicative(toks, pos) == Ok(Parsed(l, mid))
    ensures ParseAdditive(toks, pos) == ParseAdditiveTail(toks, l, mid)
  {
  }

  /** `a - b - c` is `(a - b) - c`: additive operators group to the left. */
  lemma AdditiveLeftAssociative(toks: seq<Token>, pos: nat, a: Expr, m1: nat, b: Expr, m2: nat, c: Expr, n: nat)
    requires Parsable(toks) && pos < m1 && m1 + 1 < m2 && m2 + 1 < n < |toks|
    requires ParsePrimary(toks, pos) == Ok(Parsed(a, m1)) && IsAdditiveText(toks[m1].text)
    requires ParsePrimary(toks, m1 + 1) == Ok(Parsed(b, m2)) && IsAdditiveText(toks[m2].text)
    requires ParsePrimary(toks, m2 + 1) == Ok(Parsed(c, n)) && Stops(toks[n])
    ensures ParseExpr(toks, pos) ==
            Ok(Parsed(BinaryExpr(BinaryExpr(a, b, toks[m1].text.value), c, toks[m2].text.value), n))
  {
    MultiplicativeOfPrimary(toks, pos, a, m1);
    MultiplicativeOfPrimary(toks, m1 + 1, b, m2);
    MultiplicativeOfPrimary(toks, m2 + 1, c, n);
    var ab := BinaryExpr(a, b, toks[m1].text.value);
    var abc := BinaryExpr(ab, c, toks[m2].text.value);
    AdditiveStart(toks, pos, a, m1);
    AdditiveTailStep(toks, a, m1, b, m2);
    AdditiveTailStep(toks, ab, m2, c, n);
    AdditiveTailStop(toks, abc, n);
    ExprOfAdditive(toks, pos, abc, n);
  }

  /** One more `*`/`/` operand extends the product built so far. */
  lemma MultiplicativeTailStep(toks: seq<Token>, left: Expr, pos: nat, r: Expr, next: nat)
    requires Parsable(toks) && pos + 1 < next < |toks|
    requires IsMultiplicativeText(toks[pos].text) && ParsePrimary(toks, pos + 1) == Ok(Parsed(r, next))
    ensures ParseMultiplicativeTail(toks, left, pos) ==
            ParseMultiplicativeTail(toks, BinaryExpr(left, r, toks[pos].text.value), next)
  {
  }

  lemma MultiplicativeTailStop(toks: seq<Token>, left: Expr, pos: nat)
    requires Parsable(toks) && pos < |toks| && !IsMultiplicativeText(toks[pos].text)
    ensures ParseMultiplicativeTail(toks, left, pos) == Ok(Parsed(left, pos))
  {
  }

  lemma MultiplicativeStart(toks: seq<Token>, pos: nat, l: Expr, mid: nat)
    requires Parsable(toks) && pos < mid < |toks|
    requires ParsePrimary(toks, pos) == Ok(Parsed(l, mid))
    ensures ParseMultiplicative(toks, pos) == ParseMultiplicativeTail(toks, l, mid)
  {
  }

  /** `a / b / c` is `(a / b) / c`: multiplicative operators group to the left. */
  lemma MultiplicativeLeftAssociative(toks: seq<Token>, pos: nat, a: Expr, m1: nat, b: Expr, m2: nat, c: Expr, n: nat)
    requires Parsable(toks) && pos < m1 && m1 + 1 < m2 && m2 + 1 < n < |toks|
    requires ParsePrimary(toks, pos) == Ok(Parsed(a, m1)) && IsMultiplicativeText(toks[m1].text)
    requires ParsePrimary(toks, m1 + 1) == Ok(Parsed(b, m2)) && IsMultiplicativeText(toks[m2].text)
    requires ParsePrimary(toks, m2 + 1) == Ok(Parsed(c, n)) && Stops(toks[n])
    ensures ParseExpr(toks, pos) ==
            Ok(Parsed(BinaryExpr(BinaryExpr(a, b, toks[m1].text.value), c, toks[m2].text.value), n))
  {
    var ab := BinaryExpr(a, b, toks[m1].text.value);
    var abc := BinaryExpr(ab, c, toks[m2].text.value);
    MultiplicativeStart(toks, pos, a, m1);
    MultiplicativeTailStep(toks, a, m1, b, m2);
    MultiplicativeTailStep(toks, ab, m2, c, n);
    MultiplicativeTailStop(toks, abc, n);
    AdditiveOfTerm(toks, pos, abc, n);
    ExprOfAdditive(toks, pos, abc, n);
  }

  /** `a + b * c` is `a + (b * c)`: `*` and `/` bind tighter than `+` and `-`. */
  lemma ProductBindsTighterOnRight(toks: seq<Token>, pos: nat, a: Expr, m1: nat, b: Expr, m2: nat, c: Expr, n: nat)
    requires Parsable(toks) && pos < m1 && m1 + 1 < m2 && m2 + 1 < n < |toks|
    requires ParsePrimary(toks, pos) == Ok(Parsed(a, m1)) && IsAdditiveText(toks[m1].text)
    requires ParsePrimary(toks, m1 + 1) == Ok(Parsed(b, m2)) && IsMultiplicativeText(toks[m2].text)
    requires ParsePrimary(toks, m2 + 1) == Ok(Parsed(c, n)) && Stops(toks[n])
    ensures ParseExpr(toks, pos) ==
            Ok(Parsed(BinaryExpr(a, BinaryExpr(b, c, toks[m2].text.value), toks[m1].text.value), n))
  {
    var bc := BinaryExpr(b, c, toks[m2].text.value);
    MultiplicativeOfPrimary(toks, pos, a, m1);
    MultiplicativeOfProduct(toks, m1 + 1, b, m2, c, n);
    AdditiveOfSum(toks, pos, a, m1, bc, n);
    ExprOfAdditive(toks, pos, BinaryExpr(a, bc, toks[m1].text.value), n);
  }

  /** `a * b + c` is `(a * b) + c`. */
  lemma ProductBindsTighterOnLeft(toks: seq<Token>, pos: nat, a: Expr, m1: nat, b: Expr, m2: nat, c: Expr, n: nat)
    requires Parsable(toks) && pos < m1 && m1 + 1 < m2 && m2 + 1 < n < |toks|
    requires ParsePrimary(toks, pos) == Ok(Parsed(a, m1)) && IsMultiplicativeText(toks[m1].text)
    requires ParsePrimary(toks, m1 + 1) == Ok(Parsed(b, m2)) && IsAdditiveText(toks[m2].text)
    requires ParsePrimary(toks, m2 + 1) == Ok(Parsed(c, n)) && Stops(toks[n])
    ensures ParseExpr(toks, pos) ==
            Ok(Parsed(BinaryExpr(BinaryExpr(a, b, toks[m1].text.value), c, toks[m2].text.value), n))
  {
    var ab := BinaryExpr(a, b, toks[m1].text.value);
    MultiplicativeOfProduct(toks, pos, a, m1, b, m2);
    MultiplicativeOfPrimary(toks, m2 + 1, c, n);
    AdditiveOfSum(toks, pos, ab, m2, c, n);
    ExprOfAdditive(toks, pos, BinaryExpr(ab, c, toks[m2].text.value), n);
  }

  /** One operand, `=`, then an expression: an assignment. */
  lemma AssignmentOfPrimary(toks: seq<Token>, pos: nat, t: Expr, mid: nat, v: Expr, next: nat)
    requires Parsable(toks) && pos < mid && mid + 1 < next < |toks|
    requires ParsePrimary(toks, pos) == Ok(Parsed(t, mid)) && toks[mid] == EqualsToken
    requires ParseExpr(toks, mid + 1) == Ok(Parsed(v, next))
    ensures ParseExpr(toks, pos) == Ok(Parsed(AssignmentExpr(t, v), next))
  {
    MultiplicativeOfPrimary(toks, pos, t, mid);
    AdditiveOfTerm(toks, pos, t, mid);
    ExprOfAssignment(toks, pos, t, mid, v, next);
  }

  /** `a = b = c` is `a = (b = c)`: assignment groups to the right. */
  lemma AssignmentRightAssociative(toks: seq<Token>, pos: nat, a: Expr, m1: nat, b: Expr, m2: nat, c: Expr, n: nat)
    requires Parsable(toks) && pos < m1 && m1 + 1 < m2 && m2 + 1 < n < |toks|
    requires ParsePrimary(toks, pos) == Ok(Parsed(a, m1)) && toks[m1] == EqualsToken
    requires ParsePrimary(toks, m1 + 1) == Ok(Parsed(b, m2)) && toks[m2] == EqualsToken
    requires ParsePrimary(toks, m2 + 1) == Ok(Parsed(c, n)) && Stops(toks[n])
    ensures ParseExpr(toks, pos) == Ok(Parsed(AssignmentExpr(a, AssignmentExpr(b, c)), n))
  {
    ExprOfPrimary(toks, m2 + 1, c, n);
    AssignmentOfPrimary(toks, m1 + 1, b, m2, c, n);
    AssignmentOfPrimary(toks, pos, a, m1, AssignmentExpr(b, c), n);
  }

  /* ---------------- Operators matched by text ---------------- */

  /**
    The parser looks only at an operator's text: a string token whose text is
    `+` continues a sum exactly as the operator would.
   */
  lemma TextDecidesOperator(toks: seq<Token>, pos: nat, a: Expr, m: nat, b: Expr, n: nat)
    requires Parsable(toks) && pos < m && m + 1 < n < |toks|
    requires ParsePrimary(toks, pos) == Ok(Parsed(a, m)) && toks[m] == Token(String, Some("+"))
    requires ParsePrimary(toks, m + 1) == Ok(Parsed(b, n)) && Stops(toks[n])
    ensures ParseExpr(toks, pos) == Ok(Parsed(BinaryExpr(a, b, "+"), n))
  {
    MultiplicativeOfPrimary(toks, pos, a, m);
    MultiplicativeOfPrimary(toks, m + 1, b, n);
    AdditiveOfSum(toks, pos, a, m, b, n);
    ExprOfAdditive(toks, pos, BinaryExpr(a, b, "+"), n);
  }

  /**
    The comparison operators are lexed but no grammar rule consumes them, so
    a program that contains one before its end does not parse.
   */
  lemma ComparisonRejected(toks: seq<Token>, k: nat)
    requires Parsable(toks) && k < FirstEof(toks, 0)
    requires toks[k].kind == BinaryOperator && toks[k].text.Some?
    requires toks[k].text.value in {">", ">=", "<", "<=", "=="}
    ensures ParseProgram(toks).Err?
  {
  }
}

=== FILE: pipeline.dfy ===
/**
  The whole pipeline for one input line: `parse_src` (frontend/parser.c)
  tokenizes and parses, and the read-evaluate step of the REPL
  (src/main.c) evaluates the program against the session's scope.
 */
module Pipeline {
  import opened Results
  import opened Lexer
  import opened Parser
  import opened Ast
  import opened Scopes
  import opened Interpreter

  datatype Error =
    | LexFailure(lex: LexError)
    | ParseFailure(parse: ParseError)
    | EvalFailure(eval: EvalError)

  function LexFailed(e: LexError): Error { LexFailure(e) }
  function ParseFailed(e: ParseError): Error { ParseFailure(e) }
  function EvalFailed(e: EvalError): Error { EvalFailure(e) }

  /** Every number token denotes a value `atoi` can return. */
  predicate LiteralsFit(ts: seq<Token>) {
    forall k :: 0 <= k < |ts| && ts[k].kind == Number && ts[k].text.Some? && IsDigits(ts[k].text.value) ==>
      DigitsValue(ts[k].text.value) <= IntMax
  }

  /** A lexer output whose literals fit is a valid parser input. */
  lemma TerminatedParsable(ts: seq<Token>)
    requires Terminated(ts) && LiteralsFit(ts)
    ensures Parsable(ts)
  {
    forall k | 0 <= k < |ts|
      ensures Fits(ts[k])
    {
      if k < |ts| - 1 {
        assert WellFormedToken(ts[k]);
      }
    }
  }

  /** The inputs `parse_src` is defined on: C strings whose numbers fit an `int`. */
  predicate SourceFits(src: string) {
    NoNul(src) && (Lex(src).Ok? ==> LiteralsFit(Lex(src).value))
  }

  /** `parse_src`: the program a line of source text denotes. */
  function ParseSource(src: string): (r: Result<Program, Error>)
    requires SourceFits(src)
    ensures r.Ok? ==> Lex(src).Ok? && ParseProgram(Lex(src).value) == Ok(r.value)
    ensures Lex(src).Err? ==> r == Err(LexFailure(Lex(src).error))
  {
    var toks :- Lex(src).MapError(LexFailed);
    TerminatedParsable(toks);
    ParseProgram(toks).MapError(ParseFailed)
  }

  /** One line of the REPL: parse it, then evaluate it against the session scope. */
  function RunLine(src: string, sc: Scope): (r: Result<Evaluated, Error>)
    requires SourceFits(src) && |sc| > 0
    ensures r.Ok? ==> ParseSource(src).Ok? && EvalProgram(ParseSource(src).value, sc) == Ok(r.value)
    ensures r.Ok? ==> Extends(sc, r.value.scope)
  {
    var prog :- ParseSource(src);
    EvalProgram(prog, sc).MapError(EvalFailed)
  }
}

=== FILE: pipeline_props.dfy ===
/**
  End-to-end properties of one REPL line: a well-formed program printed as
  source text is read back by `parse_src` as the same program, and running
  that text is evaluating the program.
 */
module PipelineProps {
  import opened Results
  import opened Lexer
  import opened Parser
  import opened Ast
  import opened Scopes
  import opened Interpreter
  import opened Pipeline
  import opened LexerProps
  import opened ParserProps

  /** A program written out as source text: its tokens, each followed by a space. */
  function Print(p: Program): string
    requires WellFormedProgram(p)
  {
    ProgramTokensGood(p);
    Render(ProgramTokens(p))
  }

  /** The printed text lexes to the program's tokens, closed by end-of-file. */
  lemma LexPrint(p: Program)
    requires WellFormedProgram(p)
    ensures NoNul(Print(p))
    ensures Lex(Print(p)) == Ok(ProgramTokens(p) + [EofToken])
  {
    ProgramTokensGood(p);
    LexRender(ProgramTokens(p));
  }

  /** Tokens that each fit have literals that fit. */
  lemma GoodLiteralsFit(ts: seq<Token>)
    requires AllGood(ts)
    ensures LiteralsFit(ts + [EofToken])
  {
    var toks := ts + [EofToken];
    forall k | 0 <= k < |toks| && toks[k].kind == Number && toks[k].text.Some? && IsDigits(toks[k].text.value)
      ensures DigitsValue(toks[k].text.value) <= IntMax
    {
      assert k < |ts| && toks[k] == ts[k] && GoodToken(ts[k]);
    }
  }

  /**
    Round trip through `parse_src`: the source text of a well-formed program
    is accepted and parsed back to that very program.
   */
  lemma ParsePrint(p: Program)
    requires WellFormedProgram(p)
    ensures SourceFits(Print(p))
    ensures ParseSource(Print(p)) == Ok(p)
  {
    LexPrint(p);
    ProgramTokensGood(p);
    GoodLiteralsFit(ProgramTokens(p));
    ParseProgramTokens(p);
  }

  /** Running the printed text of a program in a session is evaluating that program there. */
  lemma RunPrint(p: Program, sc: Scope)
    requires WellFormedProgram(p) && |sc| > 0
    ensures SourceFits(Print(p))
    ensures RunLine(Print(p), sc) == EvalProgram(p, sc).MapError(EvalFailed)
  {
    ParsePrint(p);
  }
}

=== FILE: results.dfy ===
/**
  Failure-compatible wrappers used by every stage of the interpreter.

  valex terminates the process on every error; here each
  stage returns a `Result` instead, so that the error cases can be stated
  and proved about.
 */
module Results {

  /** An optional value; `None` plays the role of a C NULL pointer. */
  datatype Option<+T> = None | Some(value: T)

  /** A value of type `T`, or an error of type `E`. */
  datatype Result<+T, +E> = Ok(value: T) | Err(error: E) {

    predicate IsFailure() {
      Err?
    }

    function PropagateFailure<U>(): Result<U, E>
      requires Err?
    {
      Err(error)
    }

    function Extract(): T
      requires Ok?
    {
      value
    }

    /** Re-labels the error of a failed result, keeping a successful one. */
    function MapError<F>(wrap: E -> F): (r: Result<T, F>)
      ensures r.Ok? <==> Ok?
      ensures Ok? ==> r.value == value
      ensures Err? ==> r.error == wrap(error)
    {
      match this
      case Ok(v) => Ok(v)
      case Err(e) => Err(wrap(e))
    }
  }
}

=== FILE: scopes.dfy ===
/**
  The scope chain (runtime/scope.c).

  A scope is the sequence of frames from the current one outwards: `sc[0]`
  is the frame the interpreter was handed and `sc[i + 1]` is the parent of
  `sc[i]`. Each frame binds names to values and records which of its own
  names were declared constant. The parallel key/value arrays of the source
  become a map, which is sound because a frame never holds a name twice.
 */
module Scopes {
  import opened Results
  import opened Values

  datatype Frame = Frame(vars: map<string, Value>, consts: set<string>)

  type Scope = seq<Frame>

  datatype ScopeError =
    | Unresolved(name: string)
    | Redeclared(name: string)
    | ConstReassigned(name: string)

  /** `init_scope`: a frame with no bindings and no constants. */
  const EmptyFrame: Frame := Frame(map[], {})

  /** `new_scope`: an empty frame whose parent is the given chain. */
  function NewScope(parent: Scope): (r: Scope)
    ensures |r| == |parent| + 1
    ensures r[0].vars == map[] && r[0].consts == {}
    ensures forall k :: 0 <= k < |parent| ==> r[k + 1] == parent[k]
  {
    [EmptyFrame] + parent
  }

  /** Frame `i` is the innermost frame of `sc` that binds `name`. */
  predicate Innermost(sc: Scope, name: string, i: nat) {
    && i < |sc|
    && name in sc[i].vars
    && forall j :: 0 <= j < i ==> name !in sc[j].vars
  }

  predicate Unbound(sc: Scope, name: string) {
    forall j :: 0 <= j < |sc| ==> name !in sc[j].vars
  }

  /** `resolve`: the frame a name refers to, searching from the current frame outwards. */
  function Resolve(sc: Scope, name: string): (r: Option<nat>)
    requires |sc| > 0
    ensures r.Some? ==> Innermost(sc, name, r.value)
    ensures r.None? <==> Unbound(sc, name)
    decreases |sc|
  {
    if name in sc[0].vars then Some(0)
    else if |sc| == 1 then None
    else
      match Resolve(sc[1..], name)
      case None => None
      case Some(i) => Some(i + 1)
  }

  /**
    `sc'` is `sc` after binding a fresh `name` to `value` in the current frame:
    no other binding or frame changes, and `name` is constant in the current
    frame exactly when it was declared so.
   */
  ghost predicate Declared(sc: Scope, sc': Scope, name: string, value: Value, isConst: bool)
    requires |sc| > 0
  {
    && |sc'| == |sc|
    && sc'[1..] == sc[1..]
    && sc'[0].vars.Keys == sc[0].vars.Keys + {name}
    && sc'[0].vars[name] == value
    && (forall k :: k in sc[0].vars ==> sc'[0].vars[k] == sc[0].vars[k])
    && (forall k :: k in sc'[0].consts <==> k in sc[0].consts || (isConst && k == name))
  }

  /**
    `sc'` is `sc` after overwriting the binding of `name` in frame `i`: every
    other frame, every other binding and every constant set is unchanged.
   */
  ghost predicate Assigned(sc: Scope, sc': Scope, i: nat, name: string, value: Value)
    requires i < |sc|
  {
    && |sc'| == |sc|
    && (forall j :: 0 <= j < |sc| && j != i ==> sc'[j] == sc[j])
    && sc'[i].consts == sc[i].consts
    && sc'[i].vars.Keys == sc[i].vars.Keys
    && name in sc'[i].vars && sc'[i].vars[name] == value
    && (forall k :: k in sc[i].vars && k != name ==> sc'[i].vars[k] == sc[i].vars[k])
  }

  /**
    `sc'` has the frames, names and constant sets of `sc`, and every constant
    still has its value: what evaluating an expression may change.
   */
  ghost predicate Preserves(sc: Scope, sc': Scope) {
    && |sc'| == |sc|
    && forall i :: 0 <= i < |sc| ==>
         && sc'[i].vars.Keys == sc[i].vars.Keys
         && sc'[i].consts == sc[i].consts
         && forall k :: k in sc[i].consts && k in sc[i].vars ==> sc'[i].vars[k] == sc[i].vars[k]
  }

  /**
    `sc'` has the frames of `sc`, each with at least its names and constants,
    and every constant still has its value: what running statements may change.
   */
  ghost predicate Extends(sc: Scope, sc': Scope) {
    && |sc'| == |sc|
    && forall i :: 0 <= i < |sc| ==>
         && sc[i].vars.Keys <= sc'[i].vars.Keys
         && sc[i].consts <= sc'[i].consts
         && forall k :: k in sc[i].consts && k in sc[i].vars ==> sc'[i].vars[k] == sc[i].vars[k]
  }

  /**
    `declarevar`: binds `name` in the current frame and returns the value.
    Only the current frame is checked, so an outer binding may be shadowed.
   */
  function Declare(sc: Scope, name: string, value: Value, isConst: bool): (r: Result<(Scope, Value), ScopeError>)
    requires |sc| > 0
    ensures r.Err? <==> name in sc[0].vars
    ensures r.Err? ==> r.error == Redeclared(name)
    ensures r.Ok? ==> Declared(sc, r.value.0, name, value, isConst) && r.value.1 == value
    ensures r.Ok? ==> Extends(sc, r.value.0)
  {
    if name in sc[0].vars then Err(Redeclared(name))
    else
      var f := sc[0];
      var consts := if isConst then f.consts + {name} else f.consts;
      Ok(([Frame(f.vars[name := value], consts)] + sc[1..], CopyValue(value)))
  }

  /** `getvar`: a copy of the value in the innermost frame binding `name`. */
  function Get(sc: Scope, name: string): (r: Result<Value, ScopeError>)
    requires |sc| > 0
    ensures r.Err? <==> Unbound(sc, name)
    ensures r.Err? ==> r.error == Unresolved(name)
    ensures forall i: nat :: Innermost(sc, name, i) ==> r == Ok(sc[i].vars[name])
  {
    match Resolve(sc, name)
    case None => Err(Unresolved(name))
    case Some(i) => Ok(CopyValue(sc[i].vars[name]))
  }

  /**
    `setvar`: overwrites the binding of `name` in the innermost frame that
    has one, unless `name` is constant in that very frame.
   */
  function Set(sc: Scope, name: string, value: Value): (r: Result<(Scope, Value), ScopeError>)
    requires |sc| > 0
    ensures Unbound(sc, name) ==> r == Err(Unresolved(name))
    ensures forall i: nat :: Innermost(sc, name, i) ==>
              (r.Ok? <==> name !in sc[i].consts)
    ensures forall i: nat :: Innermost(sc, name, i) && r.Err? ==> r.error == ConstReassigned(name)
    ensures forall i: nat :: Innermost(sc, name, i) && r.Ok? ==>
              Assigned(sc, r.value.0, i, name, value) && r.value.1 == value
    ensures r.Ok? ==> Preserves(sc, r.value.0)
  {
    match Resolve(sc, name)
    case None => Err(Unresolved(name))
    case Some(i) =>
      if name in sc[i].consts then Err(ConstReassigned(name))
      else
        var f := sc[i];
        Ok((sc[i := Frame(f.vars[name := value], f.consts)], CopyValue(value)))
  }

  /** `init_global_scope`: one frame holding the constants `null`, `true` and `false`. */
  function InitGlobalScope(): (r: Scope)
    ensures |r| == 1
    ensures r[0].vars == map["null" := Null, "true" := Bool(true), "false" := Bool(false)]
    ensures r[0].consts == {"null", "true", "false"}
  {
    var s0 := [EmptyFrame];
    var s1 := Declare(s0, "null", Null, true).value.0;
    var s2 := Declare(s1, "true", Bool(true), true).value.0;
    Declare(s2, "false", Bool(false), true).value.0
  }
}

=== FILE: values.dfy ===
/**
  Runtime values of the language (runtime/values.c).

  A value is a Number, a Bool, a String or Null. The C `double` payload of a
  Number is modelled as a `real`; the constructors `runtimeval_null`,
  `runtimeval_number`, `runtimeval_bool` and `runtimeval_string` are the
  datatype constructors below. Owned text is a Dafny string, so a copy of a
  String has equal text and no aliasing can be observed.
 */
module Values {

  datatype Value =
    | Number(num: real)
    | Bool(b: bool)
    | Str(text: string)
    | Null

  /** The tag of a value (`ValueType` in the source). */
  datatype ValueType = VNumber | VBool | VString | VNull

  function TypeOf(v: Value): ValueType
  {
    match v
    case Number(_) => VNumber
    case Bool(_) => VBool
    case Str(_) => VString
    case Null => VNull
  }

  /**
    `copy_value`: scalars are returned as they are, a String gets a fresh
    copy of its text. The copy always has the tag and payload of the original.
   */
  function CopyValue(v: Value): (r: Value)
    ensures TypeOf(r) == TypeOf(v)
    ensures v.Number? ==> r.num == v.num
    ensures v.Bool? ==> r.b == v.b
    ensures v.Str? ==> r.text == v.text
  {
    match v
    case Str(t) => Str(t)
    case _ => v
  }
}
